=== FILE: README.md ===
# BDRegistry: a Dafny model of the registry's server core

BDRegistry is a birth and death registry web application. Citizens submit
birth or death registration applications with supporting documents. Registrars
and administrators review them; approving one issues a certificate number,
which anyone can then verify. This project models the server's core in Dafny.
It covers four parts:

- the storage layer (`server/storage.ts`);
- the route handlers (`server/routes.ts`);
- local session authentication (`server/localAuth.ts`);
- the table shapes and insert schemas (`shared/schema.ts`).

It proves properties of that model.

The model is functional. The database is a `Store` value:

- two registration tables, each holding its rows in insertion order and the
  next value of its serial id;
- the documents table;
- the users table.

Every storage operation and every handler is a pure function from the store
(and a session) to a new store and a response. Some values come from outside
the program and are parameters:

- the clocks. In a review, `Date.now()`, which timestamps the certificate
  number, and `new Date()`, which stamps the row's `updatedAt`, are two
  separate parameters (`certMs` and `now`). The user-token operations
  (`RegisterUser`, `ResendVerificationEmail`, `RequestPasswordReset`) read
  one clock, `now`, both for `Date.now()` in the token expiry and for the
  `new Date()` or column default that stamps the user row;
- the year;
- the text of `Math.random().toString(36)`;
- the UUIDs `randomUUID()` produces.

Password hashing is an opaque injective digest, `Hash(secret)`, and a password
verifies against a digest exactly when the digest is its hash.

Modules, one per file:

| file | module | models |
|---|---|---|
| base.dfy | `Base` | `Option` (`undefined`) and `Result` |
| text.dfy | `Text` | the JavaScript string operations used to build identifiers, and a decimal parser as their inverse |
| query.dfy | `Query` | `where`, `order by ... desc` and the `[row]` destructuring of a select |
| dates.dfy | `Dates` | the PostgreSQL `date` input: ISO `YYYY-MM-DD` text naming a calendar day, and its canonical rendering |
| schema.dfy | `Schema` | the record shapes and the insert schemas, which validate request bodies |
| storage.dfy | `Storage` | the storage class |
| invariant.dfy | `Invariant` | the consistency invariant the storage operations keep, and the token and certificate properties that follow from it |
| auth.dfy | `Auth` | login, registration, logout, the current-user endpoint and the `isAuthenticated` gate |
| routes.dfy | `Routes` | the registration, document, statistics, verification and review-queue handlers, and an end-to-end scenario |

Modelling choices:

- **Database refusals.** The database refuses a statement in three modelled
  ways: a unique index (`Err(UniqueViolation ...)`), a not-null column
  (`Err(NotNullViolation ...)`) and text in a `date` column that names no
  date (`Err(InvalidDate)`). Each is an error result of the storage
  operation. The handler then answers 500 and the store is unchanged.
- **Dates.** `dateOfBirth`, `fatherDateOfBirth`, `motherDateOfBirth` and
  `dateOfDeath` are `date` columns (`shared/schema.ts:48`, `:55`, `:61`,
  `:82`), but the insert schema accepts any string for them. The model reads
  a date as ISO `YYYY-MM-DD` text naming a day of the Gregorian calendar
  with a year from 1 to 9999 (`Dates.IsDate`), which is what the form's
  `type="date"` inputs produce. A registration with any other text in a date
  column, the empty string of a blank parent's date of birth included, is
  refused by the database, and the handler answers 500. Accepted ISO text
  is already the form the database stores and returns
  (`Dates.ParsedIsCanonical`), so a stored row holds the submitted text.
- **Updates.** A column set to `undefined` in an ORM update keeps its value,
  and a column set to `null` is cleared. A request body field is therefore an
  `Input`: absent, `null`, or a value. A review without notes keeps the notes;
  `reviewNotes: null` clears them; `status: null` meets the not-null status
  column and answers 500. A registration with `role: null` bypasses the
  destructuring default `'public'`, meets the not-null role column and
  answers 500.
- **Path ids.** `parseInt` of a path segment is an `Option<int>`; `None`
  stands for `NaN`. The id columns are `serial`, a 32-bit `integer`. The
  database refuses `NaN` and any id outside -2^31 .. 2^31 - 1 as an integer
  parameter, so a handler reached with such an id answers 500
  (`Routes.IdParameter`).
- **Login fields.** The local strategy refuses an empty email or password
  before it looks up the user, and the login handler answers 401 "Missing
  credentials".
- **Lookups.** A `select ... where` read through `[row]` yields the first
  matching row in table order.
- **Application ids.** An application id is `BR` or `DR`, then the year, then
  `count + 1` zero-padded to three digits. The invariant `Invariant.Consistent`
  records that, for four-digit years, the i-th row's id reads back as number
  `i + 1`. Under sequential creation this is why new ids never collide.

Behaviour of the code worth knowing:

- **No transition rule.** A status update does not check the current status.
  An approved or rejected registration can be reviewed again. Re-approving it
  issues a new certificate number, and the old number then belongs to no
  registration of that kind (`Invariant.ReapprovalReplacesCertificate`).
- **Certificate kept on rejection.** Rejecting an approved registration keeps
  its certificate number. So "certificate present exactly when approved" is
  not an invariant. Such a number no longer verifies, because verification
  requires the status `approved`.
- **Register logs in at once.** Registration logs the new session in straight
  away, although the account is unverified and a login with the same
  credentials is refused (`Auth.RegisterLogsInUnverified`).
- **Any role.** Registration stores whatever role the request names, `admin`
  included.
- **No access checks.** Reading a birth registration by id needs only a
  session. `hasRegistrationAccess` is defined but used by no handler; the
  model states it as the access rule of the listings. Listing the documents
  of an application has no ownership check.
- **"This month" counts everything approved.** `thisMonthRegistrations`
  counts every approved registration, whatever its date.
- **A blank parent's date of birth answers 500.** The registration form
  starts the optional `fatherDateOfBirth` and `motherDateOfBirth` as the
  empty string. The insert schema accepts it as text, the `date` column
  refuses it, and the handler answers 500 (`Routes.BlankDateRefused`).
- **Conflicts answer 500.** A duplicate certificate number, or a file the
  upload filter refuses, gives a 500 response rather than a client error.
- **Shadowed handler.** The hard-coded `/api/auth/user` handler at
  `server/routes.ts:48-57` is registered after the authenticated one at
  `server/localAuth.ts:150`, which always answers first, so it is not
  modelled.
- **Verification routes are unwired.** Email verification, resending and
  password reset exist in the storage class, but no route shown calls them.
  They are modelled at the storage level.
- **User columns.** The `users` table declared in `shared/schema.ts:29-38`
  has no password, verification flag or token columns, but `server/storage.ts`
  reads and writes them. The model's `User` carries the fields the storage
  class uses; `isVerified` starts false.

## Model

| member | source | states |
|---|---|---|
| Text.DecimalRoundTrip | server/storage.ts:155-156 | the decimal digits of a count read back as that count |
| Text.FourDigitDecimal | server/storage.ts:153-156 | a year from 1000 to 9999 takes exactly four digits, so the sequence part of an id starts at a fixed position |
| Text.PadStart | server/storage.ts:156 | `padStart` keeps the string as its suffix, fills only the prefix, and reaches the width unless the string is already longer |
| Text.PaddedDecimalRoundTrip | server/storage.ts:156 | a zero-padded count has at least three digits and reads back as the count |
| Text.Substr | server/routes.ts:130 | `substr(2, 4)` takes at most four characters from index 2, clipped to the string's end |
| Text.UpperBase36 | server/routes.ts:130 | upper-casing base-36 text gives upper-case letters and digits only |
| Text.DigitsRoundTrip | shared/schema.ts:48 | a number below 10^width written as exactly `width` zero-padded digits reads back as itself |
| Text.ParseDigitsRoundTrip | shared/schema.ts:48 | digit text reads as a number below 10^length, and writing that number back at the same width gives the text |
| Query.Filter | server/routes.ts:89 | a filtered listing holds each row of the input that satisfies the predicate exactly as often as the input does, and no other row |
| Query.FilterKeepsOrder | server/routes.ts:88-89 | filtering a newest-first listing keeps it newest-first |
| Query.FilterDisjoint | server/storage.ts:318-351 | rows counted under two exclusive conditions number at most the table's rows |
| Query.SortDesc | server/storage.ts:205-210 | `order by createdAt desc` returns a permutation of the rows, newest first |
| Query.SortDescContents | server/storage.ts:205-210 | the sorted listing has the table's length and exactly its rows |
| Query.First | server/storage.ts:168-174 | a `[row]` lookup yields a matching row preceded by no other match, and nothing exactly when no row matches |
| Schema.ParseInsert | shared/schema.ts:157-177 | a body is accepted exactly when every required column holds a string and every optional one a string or null; a refusal names exactly the failing columns; the record built has the requested kind |
| Schema.StripUnknownKeys | shared/schema.ts:157-177 | keys that name no insertable column do not change the outcome of validation |
| Schema.OmittedNotInsertable | shared/schema.ts:157-166 | id, application id, status, reviewer, notes, certificate number and timestamps are not insertable columns |
| Schema.OmittedColumnsIgnored | shared/schema.ts:157-177 | a value the body gives any omitted column changes nothing, so a submitter cannot set status, certificate or id |
| Schema.BirthValuesComeFromBody | shared/schema.ts:46-65 | each stored birth column is the body's value for it |
| Schema.DeathValuesComeFromBody | shared/schema.ts:81-94 | each stored death column is the body's value for it |
| Schema.ParsedValuesComeFromBody | shared/schema.ts:46-94 | every column of an accepted record is the body's value, and every required column is present |
| Schema.DatesValidFromBody | shared/schema.ts:46-94 | an accepted record's date columns are dates exactly when every date column the body gives a string holds a date |
| Schema.SubmitterKeepsBodyDates | server/routes.ts:63-66 | forcing the submitter column leaves the body's dates as they were |
| Dates.ParseIso | shared/schema.ts:48 | a date read from text is a calendar day with a year from 1 to 9999, read from ten characters |
| Dates.RenderParses | shared/schema.ts:48 | every calendar day's ISO text is accepted and reads back as that day |
| Dates.ParsedIsCanonical | shared/schema.ts:48 | accepted text is the ISO rendering of the day it names, so the stored date equals the submitted text |
| Dates.RefusedDates | shared/schema.ts:55 | the empty string and 29 February of a common year are no dates |
| Storage.ApplicationIdRoundTrip | server/storage.ts:153-156 | an application id with a four-digit year reads back as that year and as `count + 1`, and is at least nine characters long |
| Storage.ApplicationIdInjective | server/storage.ts:223-226 | different (year, count) pairs give different application ids |
| Storage.ApplicationIdFor | server/storage.ts:152-156 | an application id starts with the kind's prefix and the year's digits, followed by at least three characters of the padded sequence number |
| Storage.CreateRegistration | server/storage.ts:151-166 | the insert fails exactly when a date column holds text that is no date (then with the date error) or the new application id is already taken; otherwise the row is appended, pending, unreviewed, without certificate, with the next serial id and the submitted details; the table's serial advances by one, and the other table, the users, the documents and the document serial are unchanged |
| Storage.GetRegistration | server/storage.ts:168-174 | yields a row of the table with that id, and nothing exactly when no row has it |
| Storage.GetRegistrationByApplicationId | server/storage.ts:176-182 | yields a row with that application id, and nothing exactly when no row has it |
| Storage.ApplyReview | server/storage.ts:192-198 | a reviewed row keeps its id, application id, details, submitter and creation time; it takes a given status and keeps it when absent; it takes given notes, clears them on `null` and keeps them when absent; it records the reviewer and the update time, and a given certificate number |
| Storage.UpdateStatus | server/storage.ts:184-203 | fails with a not-null violation exactly when a `null` status meets an existing row, and with a unique violation exactly when the new certificate number is carried by another row; otherwise the table becomes the rows with the review applied to the row with the id, the returned row is that reviewed row or nothing when the id is unknown, and the other table, users, documents and the document serial are unchanged |
| Storage.GetAll | server/storage.ts:205-210 | every row of the table, newest first |
| Storage.GetByStatus | server/storage.ts:212-218 | each row with the status, as often as it occurs in the table, and no other row, newest first |
| Storage.RegistrationStats | server/storage.ts:312-356 | pending = pending births + pending deaths; "this month" = approved births + approved deaths; totals = table sizes; pending + approved never exceed the totals |
| Storage.VerifyCertificate | server/storage.ts:359-399 | a valid answer names an approved registration carrying the number, its kind's certificate type, its application id and the Accra Registry |
| Storage.CreateDocument | server/storage.ts:291-297 | refused exactly when application id, type or document type is missing; otherwise appended with the next id and the given fields |
| Storage.DocumentsByApplication | server/storage.ts:299-309 | each document with that application id and type, as often as it occurs, and no other document |
| Storage.GetUser | server/storage.ts:130-133 | yields a user with that id, and nothing exactly when there is none |
| Storage.GetUserByEmail | server/storage.ts:109-115 | yields a user with that email, and nothing exactly when there is none |
| Storage.ValidateUserCredentials | server/storage.ts:117-127 | yields the email's user exactly when the password matches its hash; an unknown email and a wrong password both yield nothing |
| Storage.RegisterUser | server/storage.ts:84-107 | refused exactly when the role is null (the column is not null, shared/schema.ts:35) or the id or email is taken; otherwise appends an unverified user with the hashed password, the given role and a verification token expiring 24 hours later, and the other tables and the document serial are unchanged |
| Storage.VerifyEmail | server/storage.ts:401-427 | succeeds exactly when a user holds the token with an expiry strictly after now; failure changes nothing; success marks that holder verified and clears its token; the registration and document tables and the document serial never change |
| Storage.ResendVerificationEmail | server/storage.ts:429-449 | nothing changes for an unknown or verified user; otherwise the user gets the new token expiring 24 hours later; the registration and document tables and the document serial never change |
| Storage.RequestPasswordReset | server/storage.ts:451-471 | nothing changes for an unknown email; otherwise the user gets the reset token expiring one hour later; the registration and document tables and the document serial never change |
| Storage.ResetPassword | server/storage.ts:473-501 | succeeds exactly when a user holds the reset token unexpired; failure changes nothing, the password included; success sets the new hash and clears the token; the registration and document tables and the document serial never change |
| Invariant.EmptyStoreValid | shared/schema.ts:41-116 | the empty database satisfies the invariant |
| Invariant.Consistent | shared/schema.ts:29-116 | a consistent store has unique row ids, unique application ids and unique certificate numbers in each registration table, distinct document ids, and unique user ids and emails |
| Invariant.WithValidTable | shared/schema.ts:41-116 | replacing one registration table of a consistent store by a valid one keeps the store consistent |
| Invariant.ValidTableHasUniqueApplicationIds | shared/schema.ts:43 | under the invariant, application ids are unique in each table |
| Invariant.AppendPreservesTableValid | server/storage.ts:158-164 | appending the next numbered, certificate-less row keeps a table consistent |
| Invariant.CreateRegistrationSucceeds | server/storage.ts:151-166 | with a four-digit year a create never meets the unique index: it succeeds exactly when every date column holds a date, and the store then stays consistent |
| Invariant.SuccessiveCreatesDistinct | server/storage.ts:221-236 | two successive creates with valid dates give different application ids |
| Invariant.CreatedFoundByApplicationId | server/storage.ts:176-182 | a new registration with valid dates is what its application id looks up |
| Invariant.ReviewKeepsCertificatesUnique | shared/schema.ts:69 | an accepted review leaves certificate numbers unique |
| Invariant.ReviewPreservesTableValid | server/storage.ts:254-273 | an accepted review keeps the table consistent |
| Invariant.UpdateStatusPreservesValid | server/storage.ts:184-203 | an accepted status update keeps the store consistent |
| Invariant.ReapprovalReplacesCertificate | server/routes.ts:126-140 | approving again with a new number leaves the old number on no row of the table |
| Invariant.ReviewDropsCertificate | server/routes.ts:126-140 | a review giving a row a new number leaves its old number on no row of the table |
| Invariant.CreateDocumentPreservesValid | server/storage.ts:291-297 | a document insert keeps document ids increasing |
| Invariant.UpdateUserPreservesValid | server/storage.ts:415-424 | a one-user update issuing only unused tokens keeps ids, emails and tokens unique |
| Invariant.RegisterUserPreservesValid | server/storage.ts:84-107 | registering with an unused token keeps the users consistent |
| Invariant.VerificationHolderUnique | server/storage.ts:402-410 | the verification lookup finds the one user holding the token |
| Invariant.ResetHolderUnique | server/storage.ts:474-482 | the reset lookup finds the one user holding the token |
| Invariant.EmailOwner | server/storage.ts:109-115 | with unique emails, an email finds its own user |
| Invariant.VerifyEmailPreservesValid | server/storage.ts:401-427 | email verification keeps the users consistent |
| Invariant.VerifyEmailSingleUse | server/storage.ts:401-427 | a verification token works once: afterwards it matches nobody at any time |
| Invariant.VerifyEmailVerifies | server/storage.ts:415-424 | the token's holder is afterwards found by email as the same account, now verified, with its token cleared and its password, names and role kept |
| Invariant.VerificationTokenLifetime | server/storage.ts:86-87 | a registration's token verifies exactly until, and not including, 24 hours after registration |
| Invariant.ResendRevokesOldToken | server/storage.ts:429-449 | after a resend the previous token no longer verifies |
| Invariant.ResendPreservesValid | server/storage.ts:429-449 | a resend with an unused token keeps the users consistent |
| Invariant.RequestResetRevokesOldToken | server/storage.ts:451-501 | after a new reset request the user's previous reset token no longer resets the password |
| Invariant.RequestPasswordResetPreservesValid | server/storage.ts:451-471 | a reset request with an unused token keeps the users consistent |
| Invariant.ResetPasswordPreservesValid | server/storage.ts:473-501 | a password reset keeps the users consistent |
| Invariant.ResetTokenLifetime | server/storage.ts:458-459 | a reset token works exactly until, and not including, one hour after the request |
| Invariant.ResetPasswordSingleUse | server/storage.ts:473-501 | a reset token works once |
| Invariant.ResetThenLogin | server/storage.ts:490-498 | after a reset the holder's credentials validate with the new password and with no other |
| Invariant.CertificateHolderUnique | shared/schema.ts:69 | a certificate lookup finds the one row carrying the number |
| Invariant.VerifyCertificateComplete | server/storage.ts:359-399 | an approved registration's number verifies as that registration; a death certificate does so unless an approved birth carries the same number |
| Invariant.VerifyCertificateIff | server/storage.ts:359-399 | a number verifies exactly when some approved registration of either kind carries it |
| Auth.Authenticate | server/localAuth.ts:59-73 | a request is authenticated exactly when its session holds the id of an existing user, and then acts as that user |
| Auth.Login | server/localAuth.ts:25-51 | an empty email or password gives 401 "Missing credentials" and changes nothing; otherwise success exactly for a known email, a matching password and a verified account; bad credentials give "Invalid email or password." whether the email or the password is wrong; a correct password on an unverified account gives "Email not verified."; success binds the session to the user id and returns id, email, names and role only |
| Auth.Register | server/localAuth.ts:105-142 | a known email gives 400 and changes nothing; a `null` role gives 500 "Error during registration" and changes nothing; otherwise the request succeeds exactly when the id and email are free, stores the user with the requested role or `public` when the role is absent, and binds the session to it; the registration and document tables and the document serial never change |
| Auth.RegisterAppendsUser | server/localAuth.ts:105-122 | registering a fresh email and id with a role that is not null succeeds, logs the session in and appends an unverified user with that id, email and password, keeping ids and emails unique |
| Auth.Logout | server/localAuth.ts:144-148 | the session no longer holds a user |
| Auth.CurrentUser | server/localAuth.ts:150-171 | the session's user without its password, or 401 "Unauthorized" |
| Auth.SessionResolves | server/localAuth.ts:54-68 | with unique ids, a stored user id resolves to its own user |
| Auth.LoginThenAuthenticated | server/localAuth.ts:86-101 | after a successful login the session authenticates as the logged-in user |
| Auth.LogoutThenUnauthorized | server/localAuth.ts:144-148 | after logout the current-user endpoint answers 401 |
| Auth.RegisterLogsInUnverified | server/localAuth.ts:124-137 | registration authenticates the unverified account, though login with the same credentials answers "Email not verified." (or "Missing credentials" when the email or password is empty) |
| Auth.RegisterVerifyLogin | server/localAuth.ts:25-46 | register, verify within 24 hours, then login succeeds with the registered profile, unless the email or password is empty, which login refuses as missing credentials |
| Routes.ListRegistrations | server/routes.ts:80-97 | 401 without a session; otherwise each row of the table the caller may access (every row for admin or registrar, their own for others), as often as it occurs in the table, and no other row, newest first |
| Routes.IsAdminOrRegistrar | server/routes.ts:33-36 | holds for the roles `admin` and `registrar` and for no other role, `public` and `health_worker` included |
| Routes.HasRegistrationAccess | server/routes.ts:39-41 | admin and registrar may access every registration; any other user exactly those they submitted |
| Routes.SubmitterSeesOwnRegistration | server/routes.ts:60-97 | a submitter's new registration appears in their own listing |
| Routes.CreateRegistrationRoute | server/routes.ts:60-78 | 401 without a session; 400 exactly when a column fails validation, naming those columns, with no insert; a body that passes validation but whose date column holds text that is no date gets 500; any other failure is 500 with no change; a created row holds the validated body's details, the next serial id, is pending, certificate-less, of the route's kind and submitted by the session user whatever the body says; it is appended to its table, and the other table, users, documents and the document serial are unchanged |
| Routes.BlankDateRefused | server/routes.ts:60-78 | a body that passes validation but gives a date column the empty string is answered 500 "Failed to create ... registration" and the store is unchanged |
| Routes.GetBirthRegistrationRoute | server/routes.ts:99-113 | 401 without a session; 500 "Failed to fetch birth registration" for an id the database refuses (`NaN` or outside the 32-bit range); otherwise the row with the id, or 404 exactly when there is none |
| Routes.CertificateNumber | server/routes.ts:130 | a certificate number is the kind's prefix, then the clock's digits, then at most four further characters |
| Routes.CertificateNumberFormat | server/routes.ts:130 | a certificate number is BC or DC, the clock's digits which read back as the clock, then four upper-case alphanumeric characters |
| Routes.PatchStatus | server/routes.ts:115-147 | 401 without a session; 403 with no change unless admin or registrar; otherwise success exactly when the database accepts the id (not `NaN`, within the 32-bit range), no `null` status meets an existing row and the issued number clashes with no other row, every failure being 500 with no change; on success the table becomes the rows with the review (requested status and notes, the reviewer, the number issued only when approving an existing row, the update time) applied to the row with the id, and nothing else changes: the other table, users, documents and the document serial are kept |
| Routes.PatchedRow | server/routes.ts:115-147 | a reviewer's update of an existing row, with a status that is not `null` and an issued number no other row carries, succeeds; the returned row keeps its id, application id, details, submitter and creation time, holds the requested status (or its old one when absent), names the reviewer, follows the notes rule, carries the newly issued number when the request approves and its old number otherwise, and is stamped with the update time |
| Routes.UploadFilter | server/routes.ts:17-30 | a file passes exactly when its type is JPEG, PNG or PDF and it has at most 5 MiB; a refused type is reported first |
| Routes.UploadDocument | server/routes.ts:229-253 | 401 without a session; a file the upload filter refuses gives 500 with the filter's message; no file gives 400; an accepted file is stored exactly when the form names the application id, type and document type, and otherwise gives 500 "Failed to upload document"; a stored document carries the form fields, the uploader's id and the next document id, is appended, and the document serial advances by one; registrations and users never change; any failure changes nothing |
| Routes.ListDocuments | server/routes.ts:255-264 | 401 "Unauthorized" is the only failure; otherwise each document of the application, as often as it occurs, and no other document |
| Routes.UploadThenListed | server/routes.ts:229-264 | an uploaded document is listed under the application it names |
| Routes.Statistics | server/routes.ts:267-275 | 401 "Unauthorized" is the only failure; otherwise the body is the storage statistics, whose pending and approved parts never exceed the totals |
| Routes.VerifyRoute | server/routes.ts:278-287 | the public verification answer needs no session and always succeeds; a valid answer names the Accra Registry and an approved registration carrying the number, with its kind's certificate type and application id |
| Routes.VerifyRouteIff | server/routes.ts:278-287 | in a consistent store the public route accepts a number exactly when an approved registration of either kind carries it |
| Routes.PendingEntries | server/routes.ts:290-311 | the review queue before sorting holds exactly the pending births and deaths, tagged with their kind, and is as long as the pending count of the statistics |
| Routes.PendingApplications | server/routes.ts:290-311 | 401 and 403 gates; otherwise a newest-first permutation of the pending births and deaths tagged with their kind, as many as the statistics count |
| Routes.PendingQueueMatchesStatistics | server/routes.ts:290-311 | a reviewer's queue is as long as the pending count of the statistics |
| Routes.RowById | server/storage.ts:168-174 | in a consistent table a row's id looks up that row |
| Routes.SubmitAppends | server/routes.ts:60-78 | a submission that passes validation is stored exactly when every date column it gives a string holds a date; it is then the table's new last row with the next application id and the validated details; the other table, users, documents and the document serial are unchanged, and the store stays consistent |
| Routes.ApprovalUpdates | server/routes.ts:123-140 | approving an existing row with an unused number is the storage review with that number, and the database accepts it |
| Routes.ApproveThenVerify | server/routes.ts:115-147 | after approval the issued number passes the public verification route as the row's application, with the update time as issue date |
| Routes.SubmitApproveVerify | server/routes.ts:60-147 | submit with valid dates, approve as a reviewer, then verify publicly: valid, with the kind's certificate type and the application id of the submission |

## Left out

- `upsertUser` (`server/storage.ts:135-149`): no route in the modelled core calls it.
- Express, passport, cookies and `express-session`: sessions are modelled as the user id they carry. Cookie expiry is not modelled.
- Email delivery: it is a notification sink with no effect on the store.
- Password hashing: the hashing module is not part of this model. It is an opaque injective digest.
- Concurrency: the `count + 1` read-then-write race on application ids is not modelled. Id uniqueness is proved for sequential creation only.
- Serial values consumed by failed inserts: the model advances a table's serial only on a successful insert. The database also consumes a value on a failed one, which changes no proved property.
- Path parameters: `parseInt` itself is not modelled. Handlers take its result as an `Option<int>`, so its partial parsing (`"12abc"` reads as 12) is taken as given.
- JSON values other than a string, `null` or a missing field for `status`, `reviewNotes` and `role`: numbers, booleans and objects are not modelled.
- Missing or `null` email, password and names at registration and login: the request's email, password and names are taken to be strings. Passport's fallback to the query string for an empty login field is not modelled.
- Serial exhaustion: a `serial` sequence stops at 2^31 - 1, but the model keeps issuing ids. The end-to-end lemmas therefore require the row id they approve to be within the 32-bit range.
- The two clocks of a review: `Date.now()` (`certMs`) and `new Date()` (`now`) are independent parameters; the model does not relate them. The user-token operations read both through the one parameter `now`, so their expiry and their row stamp come from the same instant.
- Storage.CreateRegistration: treats as a date only ISO `YYYY-MM-DD` text naming a calendar day with a year from 1 to 9999. PostgreSQL also accepts other spellings (`2024-1-2`, `Jan 2 2024`, years outside that range) and stores them in canonical form; the model refuses those instead.
- Routes.CreateRegistrationRoute: answers 500 for every date spelling other than ISO `YYYY-MM-DD`, for the same reason; the database would store some of them.
- Routes.SubmitAppends: its "stored exactly when the dates are dates" holds for the model's ISO-only reading of a date.
- Routes.SubmitApproveVerify: requires ISO dates in the body, so a submission with another spelling the database would accept is not covered.
- Invariant.CreateRegistrationSucceeds: its "succeeds exactly when every date column holds a date" holds for the model's ISO-only reading of a date.
- Years outside 1000–9999: the application-id invariant assumes a four-digit year.
- Tie order: the order of rows with equal `createdAt` in a newest-first listing is left unspecified by SQL and by the model's contracts.
- `issuedDate`'s fallback to `createdAt`: `updatedAt` is never null in the model.
- Error paths of the storage reads (a failing database connection) and of `req.logIn`: they give 500 responses and are not modelled.
- The 500 body for upload filter errors: it comes from Express's default error handler and is modelled as a failure with the error's message.
- Routes.CertificateNumberFormat: assumes the random text has at least six characters. A shorter `Math.random().toString(36)` gives a shorter suffix.

=== FILE: auth.dfy ===
/** Session-based local authentication: the login strategy, the session's
    (de)serialisation of the user id, the register, logout and current-user
    endpoints and the `isAuthenticated` gate. A session is the user id it
    carries; a response is a JSON body or a status code with a message. */
module Auth {
  import opened Base
  import opened Query
  import opened Schema
  import opened Storage
  import opened Invariant

  /** The server-side session: the serialised user id, when logged in. */
  datatype Session = Session(userId: Option<string>)

  const Anonymous: Session := Session(None)

  /** An HTTP answer: 200 with a body, or an error status with a message and
      the request-body fields that failed validation (empty for others). */
  datatype Response<+T> =
    | Success(body: T)
    | Failure(code: nat, message: string, invalid: set<Field>)

  function Fail<T>(code: nat, message: string): Response<T> {
    Failure(code, message, {})
  }

  const MISSING_CREDENTIALS: string := "Missing credentials"
  const INVALID_CREDENTIALS: string := "Invalid email or password."
  const NOT_VERIFIED: string := "Email not verified."
  const UNAUTHORIZED: string := "Unauthorized"

  /** The user fields the auth endpoints return. */
  datatype PublicUser = PublicUser(id: string, email: string, firstName: string, lastName: string, role: string)

  function PublicView(u: User): PublicUser {
    PublicUser(u.id, u.email, u.firstName, u.lastName, u.role)
  }

  /** `isAuthenticated` after the session's user id is deserialised: the
      user a request acts as, or `None` (401 "Unauthorized") when the session
      carries no id or an id that names no user. */
  function Authenticate(s: Store, session: Session): (r: Option<User>)
    ensures r.Some? <==> session.userId.Some? && exists i :: 0 <= i < |s.users| && s.users[i].id == session.userId.value
    ensures r.Some? ==> r.value in s.users && r.value.id == session.userId.value
  {
    if session.userId.None? then None else GetUser(s, session.userId.value)
  }

  /** Both login fields are non-empty: the local strategy refuses an empty
      email or password before it looks at the store. */
  predicate HasCredentials(email: string, password: string) {
    email != "" && password != ""
  }

  /** `POST /api/auth/login`: an empty email or password is refused as
      missing; a wrong email and a wrong password give the same answer; a
      correct password on an unverified account is refused with its own
      message; success binds the session to the user id. */
  function Login(s: Store, session: Session, email: string, password: string): (r: (Session, Response<PublicUser>))
    ensures !HasCredentials(email, password) ==> r == (session, Fail(401, MISSING_CREDENTIALS))
    ensures var u := GetUserByEmail(s, email);
      && (r.1.Success? <==> HasCredentials(email, password) && u.Some? && VerifyPassword(password, u.value.password) && u.value.isVerified)
      && (r.1.Success? ==> r.0 == Session(Some(u.value.id)) && r.1.body == PublicView(u.value))
      && (r.1.Failure? ==> r.0 == session && r.1.code == 401)
      && (HasCredentials(email, password) && (u.None? || !VerifyPassword(password, u.value.password)) ==>
            r.1 == Fail(401, INVALID_CREDENTIALS))
      && (HasCredentials(email, password) && u.Some? && VerifyPassword(password, u.value.password) && !u.value.isVerified ==>
            r.1 == Fail(401, NOT_VERIFIED))
  {
    if !HasCredentials(email, password) then (session, Fail(401, MISSING_CREDENTIALS))
    else
      var u := ValidateUserCredentials(s, email, password);
      if u.None? then (session, Fail(401, INVALID_CREDENTIALS))
      else if !u.value.isVerified then (session, Fail(401, NOT_VERIFIED))
      else (Session(Some(u.value.id)), Success(PublicView(u.value)))
  }

  /** The register request; `role` may be missing or `null`. */
  datatype RegisterRequest = RegisterRequest(email: string, password: string, firstName: string, lastName: string, role: Input<string>)

  /** The role the handler stores: the destructuring default `public`
      replaces a missing role only, so a `null` role stays SQL NULL. */
  function StoredRole(role: Input<string>): Option<string> {
    match role
    case Absent => Some(PUBLIC)
    case Null => None
    case Given(v) => Some(v)
  }

  function NewAccount(body: RegisterRequest): NewUser {
    NewUser(body.email, body.password, body.firstName, body.lastName, StoredRole(body.role))
  }

  /** `POST /api/auth/register`: refuses a known email with 400, otherwise
      stores the user with the requested role (public when missing) and logs
      the new session in at once. A `null` role meets the not-null column
      and answers 500. */
  function Register(s: Store, session: Session, body: RegisterRequest, id: string, token: string, now: int): (r: (Store, Session, Response<PublicUser>))
    ensures GetUserByEmail(s, body.email).Some? ==> r == (s, session, Fail(400, "Email already registered"))
    ensures GetUserByEmail(s, body.email).None? && body.role.Null? ==>
      r == (s, session, Fail(500, "Error during registration"))
    ensures r.2.Success? <==>
      !body.role.Null? && forall i :: 0 <= i < |s.users| ==> s.users[i].email != body.email && s.users[i].id != id
    ensures r.2.Failure? ==> r.0 == s && r.1 == session
    ensures r.0.births == s.births && r.0.deaths == s.deaths && r.0.documents == s.documents
    ensures r.0.nextDocumentId == s.nextDocumentId
    ensures r.2.Success? ==>
      var u := RegisterUser(s, NewAccount(body), id, token, now).value.1;
      var role := if body.role.Given? then body.role.value else PUBLIC;
      && r.0.users == s.users + [u]
      && u.role == role
      && r.1 == Session(Some(id))
      && r.2.body == PublicUser(id, body.email, body.firstName, body.lastName, role)
  {
    if GetUserByEmail(s, body.email).Some? then (s, session, Fail(400, "Email already registered"))
    else
      match RegisterUser(s, NewAccount(body), id, token, now)
      case Err(_) => (s, session, Fail(500, "Error during registration"))
      case Ok((s', u)) => (s', Session(Some(u.id)), Success(PublicView(u)))
  }

  /** `POST /api/auth/logout` drops the session's user. */
  function Logout(session: Session): (r: (Session, Response<string>))
    ensures r.0.userId.None? && r.1.Success?
  {
    (Anonymous, Success("Logged out successfully"))
  }

  /** `GET /api/auth/user`: the session's user, or 401. */
  function CurrentUser(s: Store, session: Session): (r: Response<PublicUser>)
    ensures r.Success? <==> Authenticate(s, session).Some?
    ensures r.Success? ==> r.body == PublicView(Authenticate(s, session).value)
    ensures r.Failure? ==> r == Fail(401, UNAUTHORIZED)
  {
    var u := Authenticate(s, session);
    if u.None? then Fail(401, UNAUTHORIZED) else Success(PublicView(u.value))
  }

  // ---------------------------------------------------------------------
  // Properties of the session life cycle

  /** The user a session id resolves to, when ids are unique. */
  lemma SessionResolves(users: seq<User>, i: nat)
    requires UniqueUserIds(users) && i < |users|
    ensures First(users, HasUserId(users[i].id)) == Some(users[i])
  {
    forall j | 0 <= j < |users| && HasUserId(users[i].id)(users[j])
      ensures users[j] == users[i]
    {
      assert j == i;
    }
    FirstOfUnique(users, HasUserId(users[i].id), i);
  }

  /** A successful login authenticates every later request of the session as
      that user. */
  lemma LoginThenAuthenticated(s: Store, session: Session, email: string, password: string)
    requires UsersValid(s.users) && Login(s, session, email, password).1.Success?
    ensures Authenticate(s, Login(s, session, email, password).0) == GetUserByEmail(s, email)
  {
    var u := GetUserByEmail(s, email).value;
    var i :| 0 <= i < |s.users| && s.users[i] == u;
    SessionResolves(s.users, i);
  }

  /** After logout no request of the session is authenticated. */
  lemma LogoutThenUnauthorized(s: Store, session: Session)
    ensures CurrentUser(s, Logout(session).0) == Fail(401, UNAUTHORIZED)
  {
  }

  /** A fresh registration appends one unverified user with the given id,
      email and password, and ids and emails stay unique. */
  lemma RegisterAppendsUser(s: Store, session: Session, body: RegisterRequest, id: string, token: string, now: int)
    requires Consistent(s)
    requires forall i :: 0 <= i < |s.users| ==> s.users[i].email != body.email && s.users[i].id != id
    requires !body.role.Null?
    ensures var (s', session', resp) := Register(s, session, body, id, token, now);
      var n := |s.users|;
      && resp.Success? && session' == Session(Some(id))
      && |s'.users| == n + 1 && s'.users[n].id == id && s'.users[n].email == body.email
      && !s'.users[n].isVerified && VerifyPassword(body.password, s'.users[n].password)
      && UniqueUserIds(s'.users) && UniqueEmails(s'.users)
  {
    var s' := Register(s, session, body, id, token, now).0;
    var n := |s.users|;
    assert forall i :: 0 <= i < n ==> s'.users[i] == s.users[i];
  }

  /** Registration logs the new, unverified account in at once, although a
      login with the same credentials is refused until the email is
      verified. */
  lemma RegisterLogsInUnverified(s: Store, session: Session, body: RegisterRequest, id: string, token: string, now: int)
    requires Consistent(s)
    requires forall i :: 0 <= i < |s.users| ==> s.users[i].email != body.email && s.users[i].id != id
    requires !body.role.Null?
    ensures var (s', session', resp) := Register(s, session, body, id, token, now);
      && resp.Success?
      && Authenticate(s', session').Some?
      && !Authenticate(s', session').value.isVerified
      && Login(s', Anonymous, body.email, body.password).1 ==
         Fail(401, if HasCredentials(body.email, body.password) then NOT_VERIFIED else MISSING_CREDENTIALS)
  {
    var (s', session', resp) := Register(s, session, body, id, token, now);
    RegisterAppendsUser(s, session, body, id, token, now);
    var n := |s.users|;
    SessionResolves(s'.users, n);
    EmailOwner(s'.users, n);
    assert GetUserByEmail(s', body.email) == Some(s'.users[n]);
  }

  /** Registering, then following the emailed link within 24 hours, makes
      the credentials valid for login. */
  lemma RegisterVerifyLogin(s: Store, body: RegisterRequest, id: string, token: string, now: int, t: int)
    requires Consistent(s)
    requires forall i :: 0 <= i < |s.users| ==> s.users[i].email != body.email && s.users[i].id != id
    requires !body.role.Null?
    requires forall i :: 0 <= i < |s.users| ==> s.users[i].verificationToken != Some(token)
    requires t < now + VERIFICATION_TOKEN_LIFETIME
    ensures var s1 := Register(s, Anonymous, body, id, token, now).0;
      var (s2, ok) := VerifyEmail(s1, token, t);
      && ok
      && Login(s2, Anonymous, body.email, body.password).1 ==
         if HasCredentials(body.email, body.password)
         then Success(PublicUser(id, body.email, body.firstName, body.lastName, if body.role.Given? then body.role.value else PUBLIC))
         else Fail(401, MISSING_CREDENTIALS)
  {
    var data := NewAccount(body);
    var s1 := Register(s, Anonymous, body, id, token, now).0;
    assert s1 == RegisterUser(s, data, id, token, now).value.0;
    RegisterUserPreservesValid(s, data, id, token, now);
    var n := |s.users|;
    var u := s1.users[n];
    assert u.email == body.email && u.id == id && HoldsVerificationToken(u, token, t);
    VerifyEmailVerifies(s1, token, t, n);
    var s2 := VerifyEmail(s1, token, t).0;
    assert GetUserByEmail(s2, body.email) == Some(ApplyUserChange(u, MarkVerified(t)));
  }
}

=== FILE: base.dfy ===
/** Optional values and results with an error, as returned by the storage and
    route layers (a missing row is `undefined`, a failed request carries an
    error). */
module Base {

  datatype Option<+T> = None | Some(value: T) {

    /** The wrapped value, or `default` when there is none (JavaScript's `??`). */
    function GetOr(default: T): T {
      match this
      case Some(v) => v
      case None => default
    }
  }

  datatype Result<+T, +E> = Ok(value: T) | Err(error: E)

  /** A field of a JSON request body as the handler passes it on: missing
      (`undefined`, which the ORM leaves out of a statement), `null` (which
      the ORM writes as SQL NULL), or a value. */
  datatype Input<+T> = Absent | Null | Given(value: T)
}

=== FILE: dates.dfy ===
/** The PostgreSQL `date` columns as the registry fills them. The browser's
    date input sends `YYYY-MM-DD` or, when left blank, the empty string; the
    database reads the former as a day of the Gregorian calendar, refuses
    text that names no day, and hands a date back in the same ISO form. */
module Dates {
  import opened Base
  import opened Text

  datatype Date = Date(year: nat, month: nat, day: nat)

  predicate LeapYear(year: nat) {
    year % 4 == 0 && (year % 100 != 0 || year % 400 == 0)
  }

  function DaysInMonth(year: nat, month: nat): nat {
    if month == 2 then (if LeapYear(year) then 29 else 28)
    else if month == 4 || month == 6 || month == 9 || month == 11 then 30
    else 31
  }

  /** A day of the calendar with a four-digit year. */
  predicate ValidDate(d: Date) {
    1 <= d.year <= 9999 && 1 <= d.month <= 12 && 1 <= d.day <= DaysInMonth(d.year, d.month)
  }

  /** The ISO text of a date: four-digit year, two-digit month and day. */
  function Render(d: Date): (r: string)
    ensures |r| == 10 && r[4] == '-' && r[7] == '-'
    ensures AllDigits(r[..4]) && AllDigits(r[5..7]) && AllDigits(r[8..])
  {
    var r := Digits(d.year, 4) + "-" + Digits(d.month, 2) + "-" + Digits(d.day, 2);
    assert r[..4] == Digits(d.year, 4) && r[5..7] == Digits(d.month, 2) && r[8..] == Digits(d.day, 2);
    r
  }

  /** Reads `YYYY-MM-DD` text: `None` for any other shape, and for a month
      or day the calendar does not have. */
  function ParseIso(t: string): (r: Option<Date>)
    ensures r.Some? ==> ValidDate(r.value) && |t| == 10
  {
    if |t| == 10 && t[4] == '-' && t[7] == '-' && AllDigits(t[..4]) && AllDigits(t[5..7]) && AllDigits(t[8..]) then
      var d := Date(ParseDecimal(t[..4]), ParseDecimal(t[5..7]), ParseDecimal(t[8..]));
      if ValidDate(d) then Some(d) else None
    else None
  }

  /** Text a `date` column accepts. */
  predicate IsDate(t: string) {
    ParseIso(t).Some?
  }

  /** Every calendar day is accepted in its ISO form and reads back as
      itself. */
  lemma RenderParses(d: Date)
    requires ValidDate(d)
    ensures ParseIso(Render(d)) == Some(d)
  {
    var r := Render(d);
    assert r[..4] == Digits(d.year, 4) && r[5..7] == Digits(d.month, 2) && r[8..] == Digits(d.day, 2);
    DigitsRoundTrip(d.year, 4);
    DigitsRoundTrip(d.month, 2);
    DigitsRoundTrip(d.day, 2);
  }

  /** Accepted text is already the canonical form the database hands back:
      rendering the date it names gives the text itself. */
  lemma ParsedIsCanonical(t: string)
    requires IsDate(t)
    ensures Render(ParseIso(t).value) == t
  {
    var d := ParseIso(t).value;
    ParseDigitsRoundTrip(t[..4]);
    ParseDigitsRoundTrip(t[5..7]);
    ParseDigitsRoundTrip(t[8..]);
    assert t == t[..4] + "-" + t[5..7] + "-" + t[8..];
  }

  /** The blank date of an untouched date input, and a day the calendar
      does not have, are refused. */
  lemma RefusedDates()
    ensures !IsDate("")
    ensures !IsDate("2023-02-29")
  {
    var t := "2023-02-29";
    assert t[..4] == "2023" && t[5..7] == "02" && t[8..] == "29";
    assert "2023"[..3] == "202" && "202"[..2] == "20" && "20"[..1] == "2" && "2"[..0] == "";
    assert ParseDecimal("20") == 20;
    assert ParseDecimal("2023") == 2023;
    assert "02"[..1] == "0" && "0"[..0] == "" && ParseDecimal("02") == 2;
    assert "29"[..1] == "2" && ParseDecimal("29") == 29;
  }
}

=== FILE: invariant.dfy ===
/** What the storage layer keeps true of its tables when every change goes
    through its operations, and the properties of the account tokens and
    certificates that follow from it. */
module Invariant {
  import opened Base
  import opened Text
  import opened Query
  import opened Schema
  import opened Storage

  /** A registration table: rows of its kind, serial ids increasing in
      insertion order and below the sequence's next value, the i-th row's
      application id numbered i + 1, certificate numbers unique. */
  predicate TableValid(t: Table, k: Kind) {
    && (forall i :: 0 <= i < |t.rows| ==> t.rows[i].details.OfKind() == k && t.rows[i].id < t.nextId)
    && (forall i, j :: 0 <= i < j < |t.rows| ==> t.rows[i].id < t.rows[j].id)
    && (forall i :: 0 <= i < |t.rows| ==> ApplicationSerial(k, t.rows[i].applicationId) == Some(i + 1))
    && UniqueCertificates(t.rows)
  }

  predicate DocumentsValid(docs: seq<Document>, nextId: nat) {
    && (forall i :: 0 <= i < |docs| ==> docs[i].id < nextId)
    && (forall i, j :: 0 <= i < j < |docs| ==> docs[i].id < docs[j].id)
  }

  /** A token is a fresh UUID: no two users hold the same one. */
  predicate UniqueVerificationTokens(users: seq<User>) {
    forall i, j :: 0 <= i < j < |users| && users[i].verificationToken.Some? ==>
      users[i].verificationToken != users[j].verificationToken
  }

  predicate UniqueResetTokens(users: seq<User>) {
    forall i, j :: 0 <= i < j < |users| && users[i].resetToken.Some? ==>
      users[i].resetToken != users[j].resetToken
  }

  predicate UsersValid(users: seq<User>) {
    UniqueUserIds(users) && UniqueEmails(users) && UniqueVerificationTokens(users) && UniqueResetTokens(users)
  }

  predicate UniqueRowIds(rows: seq<Registration>) {
    forall i, j :: 0 <= i < j < |rows| ==> rows[i].id != rows[j].id
  }

  /** The store invariant. It implies the primary keys and unique columns of
      the schema: row ids, application ids and certificate numbers in each
      registration table, document ids, user ids and emails. */
  function Consistent(s: Store): (r: bool)
    ensures r ==> UniqueRowIds(s.births.rows) && UniqueRowIds(s.deaths.rows)
    ensures r ==> UniqueApplicationIds(s.births.rows) && UniqueApplicationIds(s.deaths.rows)
    ensures r ==> UniqueCertificates(s.births.rows) && UniqueCertificates(s.deaths.rows)
    ensures r ==> forall i, j :: 0 <= i < j < |s.documents| ==> s.documents[i].id != s.documents[j].id
    ensures r ==> UniqueUserIds(s.users) && UniqueEmails(s.users)
  {
    if && TableValid(s.births, Birth)
       && TableValid(s.deaths, Death)
       && DocumentsValid(s.documents, s.nextDocumentId)
       && UsersValid(s.users)
    then
      ValidTableHasUniqueApplicationIds(s.births, Birth);
      ValidTableHasUniqueApplicationIds(s.deaths, Death);
      true
    else false
  }

  lemma EmptyStoreValid()
    ensures Consistent(EmptyStore)
  {
  }

  /** Numbered application ids are unique ids. */
  lemma ValidTableHasUniqueApplicationIds(t: Table, k: Kind)
    requires TableValid(t, k)
    ensures UniqueApplicationIds(t.rows)
  {
    forall i, j | 0 <= i < j < |t.rows|
      ensures t.rows[i].applicationId != t.rows[j].applicationId
    {
      assert ApplicationSerial(k, t.rows[i].applicationId) != ApplicationSerial(k, t.rows[j].applicationId);
    }
  }

  /** Appending the next numbered row to a valid table keeps it valid. */
  lemma AppendPreservesTableValid(t: Table, k: Kind, rec: Registration)
    requires TableValid(t, k)
    requires rec.details.OfKind() == k && rec.id == t.nextId && rec.certificateNumber.None?
    requires ApplicationSerial(k, rec.applicationId) == Some(|t.rows| + 1)
    ensures TableValid(Table(t.rows + [rec], t.nextId + 1), k)
  {
    var rows := t.rows + [rec];
    forall i, j | 0 <= i < j < |rows| && rows[i].certificateNumber.Some?
      ensures rows[i].certificateNumber != rows[j].certificateNumber
    {
      if j < |t.rows| {
        assert rows[i] == t.rows[i] && rows[j] == t.rows[j];
      }
    }
  }

  /** With a four-digit year, creating a registration never meets the unique
      index on the application id: it succeeds exactly when its dates are
      dates, and then the tables stay valid. */
  lemma CreateRegistrationSucceeds(s: Store, k: Kind, ins: Insert, year: nat, now: int)
    requires Consistent(s) && 1000 <= year <= 9999 && ins.details.OfKind() == k
    ensures CreateRegistration(s, k, ins, year, now).Ok? <==> DatesValid(ins.details)
    ensures DatesValid(ins.details) ==> Consistent(CreateRegistration(s, k, ins, year, now).value.0)
  {
    var t := TableOf(s, k);
    NextApplicationIdUnused(t, k, year);
    if !DatesValid(ins.details) {
      return;
    }
    var (s', rec) := CreateRegistration(s, k, ins, year, now).value;
    AppendPreservesTableValid(t, k, rec);
    assert s' == WithTable(s, k, Table(t.rows + [rec], t.nextId + 1));
    WithValidTable(s, k, Table(t.rows + [rec], t.nextId + 1));
  }

  /** Replacing one registration table by a valid one keeps the store
      consistent. */
  lemma WithValidTable(s: Store, k: Kind, t: Table)
    requires Consistent(s) && TableValid(t, k)
    ensures Consistent(WithTable(s, k, t))
  {
  }

  /** The next application id of a valid table is carried by none of its
      rows. */
  lemma NextApplicationIdUnused(t: Table, k: Kind, year: nat)
    requires TableValid(t, k) && 1000 <= year <= 9999
    ensures ApplicationSerial(k, ApplicationIdFor(k, year, |t.rows|)) == Some(|t.rows| + 1)
    ensures forall i :: 0 <= i < |t.rows| ==> t.rows[i].applicationId != ApplicationIdFor(k, year, |t.rows|)
  {
    var appId := ApplicationIdFor(k, year, |t.rows|);
    ApplicationIdRoundTrip(k, year, |t.rows|);
    forall i | 0 <= i < |t.rows|
      ensures t.rows[i].applicationId != appId
    {
      assert ApplicationSerial(k, t.rows[i].applicationId) == Some(i + 1);
    }
  }

  /** Two registrations created one after the other get different
      application ids. */
  lemma SuccessiveCreatesDistinct(s: Store, k: Kind, a: Insert, b: Insert, year1: nat, year2: nat, t1: int, t2: int)
    requires Consistent(s) && 1000 <= year1 <= 9999 && 1000 <= year2 <= 9999
    requires a.details.OfKind() == k && b.details.OfKind() == k
    requires DatesValid(a.details) && DatesValid(b.details)
    ensures CreateRegistration(s, k, a, year1, t1).Ok?
    ensures var (s1, r1) := CreateRegistration(s, k, a, year1, t1).value;
      && CreateRegistration(s1, k, b, year2, t2).Ok?
      && CreateRegistration(s1, k, b, year2, t2).value.1.applicationId != r1.applicationId
  {
    CreateRegistrationSucceeds(s, k, a, year1, t1);
    var (s1, r1) := CreateRegistration(s, k, a, year1, t1).value;
    CreateRegistrationSucceeds(s1, k, b, year2, t2);
    var r2 := CreateRegistration(s1, k, b, year2, t2).value.1;
    ApplicationIdRoundTrip(k, year1, |TableOf(s, k).rows|);
    ApplicationIdRoundTrip(k, year2, |TableOf(s1, k).rows|);
    assert ApplicationSerial(k, r1.applicationId) != ApplicationSerial(k, r2.applicationId);
  }

  /** Reviewing keeps certificate numbers unique: ids are unique, so one row
      at most changes, and its new number clashes with no other row. */
  lemma ReviewKeepsCertificatesUnique(t: Table, k: Kind, id: int, rv: Review)
    requires TableValid(t, k) && !CertificateClash(t.rows, id, rv.certificateNumber)
    ensures UniqueCertificates(ReviewRows(t.rows, id, rv))
  {
    var rows := t.rows;
    var rows' := ReviewRows(rows, id, rv);
    forall i, j | 0 <= i < j < |rows'| && rows'[i].certificateNumber.Some?
      ensures rows'[i].certificateNumber != rows'[j].certificateNumber
    {
      assert rows[i].id < rows[j].id;
      if rv.certificateNumber.Some? && rows[i].id == id {
        assert rows[j].id != id;
        assert rows[j].certificateNumber != rv.certificateNumber;
      } else if rv.certificateNumber.Some? && rows[j].id == id {
        assert rows[i].certificateNumber != rv.certificateNumber;
      }
    }
  }

  lemma ReviewPreservesTableValid(t: Table, k: Kind, id: int, rv: Review)
    requires TableValid(t, k) && !CertificateClash(t.rows, id, rv.certificateNumber)
    ensures TableValid(Table(ReviewRows(t.rows, id, rv), t.nextId), k)
  {
    ReviewKeepsCertificatesUnique(t, k, id, rv);
  }

  /** A status update that the database accepts keeps the store valid. */
  lemma UpdateStatusPreservesValid(s: Store, k: Kind, id: int, rv: Review)
    requires Consistent(s) && UpdateStatus(s, k, id, rv).Ok?
    ensures Consistent(UpdateStatus(s, k, id, rv).value.0)
  {
    ReviewPreservesTableValid(TableOf(s, k), k, id, rv);
  }

  /** A newly created registration is what its application id looks up. */
  lemma CreatedFoundByApplicationId(s: Store, k: Kind, ins: Insert, year: nat, now: int)
    requires Consistent(s) && 1000 <= year <= 9999 && ins.details.OfKind() == k && DatesValid(ins.details)
    ensures CreateRegistration(s, k, ins, year, now).Ok?
    ensures var (s', rec) := CreateRegistration(s, k, ins, year, now).value;
      GetRegistrationByApplicationId(s', k, rec.applicationId) == Some(rec)
  {
    CreateRegistrationSucceeds(s, k, ins, year, now);
    var (s', rec) := CreateRegistration(s, k, ins, year, now).value;
    var rows := TableOf(s', k).rows;
    var n := |TableOf(s, k).rows|;
    assert rows[n] == rec;
    ValidTableHasUniqueApplicationIds(TableOf(s', k), k);
    forall i | 0 <= i < |rows| && HasApplicationId(rec.applicationId)(rows[i])
      ensures rows[i] == rec
    {
      assert i == n;
    }
    FirstOfUnique(rows, HasApplicationId(rec.applicationId), n);
  }

  /** Re-approving a registration replaces its certificate number: the old
      number is then carried by no registration of that kind. */
  lemma ReapprovalReplacesCertificate(s: Store, k: Kind, n: nat, rv: Review)
    requires Consistent(s) && n < |TableOf(s, k).rows|
    requires TableOf(s, k).rows[n].certificateNumber.Some?
    requires rv.certificateNumber.Some? && rv.certificateNumber != TableOf(s, k).rows[n].certificateNumber
    requires UpdateStatus(s, k, TableOf(s, k).rows[n].id, rv).Ok?
    ensures var rows' := TableOf(UpdateStatus(s, k, TableOf(s, k).rows[n].id, rv).value.0, k).rows;
      forall i :: 0 <= i < |rows'| ==> rows'[i].certificateNumber != TableOf(s, k).rows[n].certificateNumber
  {
    ReviewDropsCertificate(TableOf(s, k), k, n, rv);
  }

  lemma ReviewDropsCertificate(t: Table, k: Kind, n: nat, rv: Review)
    requires TableValid(t, k) && n < |t.rows| && t.rows[n].certificateNumber.Some?
    requires rv.certificateNumber.Some? && rv.certificateNumber != t.rows[n].certificateNumber
    ensures var rows' := ReviewRows(t.rows, t.rows[n].id, rv);
      forall i :: 0 <= i < |rows'| ==> rows'[i].certificateNumber != t.rows[n].certificateNumber
  {
    var rows := t.rows;
    var rows' := ReviewRows(rows, rows[n].id, rv);
    forall i | 0 <= i < |rows'|
      ensures rows'[i].certificateNumber != rows[n].certificateNumber
    {
      if i < n {
        assert rows[i].id < rows[n].id;
        assert rows'[i] == rows[i];
      } else if i > n {
        assert rows[n].id < rows[i].id;
        assert rows'[i] == rows[i];
      }
    }
  }

  /** Adding a document keeps document ids increasing. */
  lemma CreateDocumentPreservesValid(s: Store, d: DocumentInsert, now: int)
    requires Consistent(s) && CreateDocument(s, d, now).Ok?
    ensures Consistent(CreateDocument(s, d, now).value.0)
  {
  }

  // ---------------------------------------------------------------------
  // Users and tokens

  /** Changing one user's row keeps the users valid as long as a token it
      issues is held by nobody. */
  lemma UpdateUserPreservesValid(users: seq<User>, id: string, c: UserChange)
    requires UsersValid(users)
    requires c.IssueVerificationToken? ==> forall i :: 0 <= i < |users| ==> users[i].verificationToken != Some(c.token)
    requires c.IssueResetToken? ==> forall i :: 0 <= i < |users| ==> users[i].resetToken != Some(c.token)
    ensures UsersValid(UpdateUser(users, id, c))
  {
    var r := UpdateUser(users, id, c);
    forall i, j | 0 <= i < j < |r|
      ensures r[i].id != r[j].id && r[i].email != r[j].email
      ensures r[i].verificationToken.Some? ==> r[i].verificationToken != r[j].verificationToken
      ensures r[i].resetToken.Some? ==> r[i].resetToken != r[j].resetToken
    {
      assert users[i].id != users[j].id;
    }
  }

  /** Registering a user with a fresh verification token keeps the users
      valid. */
  lemma RegisterUserPreservesValid(s: Store, data: NewUser, id: string, token: string, now: int)
    requires Consistent(s) && RegisterUser(s, data, id, token, now).Ok?
    requires forall i :: 0 <= i < |s.users| ==> s.users[i].verificationToken != Some(token)
    ensures Consistent(RegisterUser(s, data, id, token, now).value.0)
  {
    var (s', u) := RegisterUser(s, data, id, token, now).value;
    forall i | 0 <= i < |s.users|
      ensures s.users[i].id != id && s.users[i].email != data.email
    {
    }
    assert s'.users[|s.users|] == u;
  }

  /** The first holder of a token is the only one when tokens are unique. */
  lemma VerificationHolderUnique(users: seq<User>, token: string, now: int, i: nat)
    requires UniqueVerificationTokens(users) && i < |users| && HoldsVerificationToken(users[i], token, now)
    ensures First(users, VerificationHolder(token, now)) == Some(users[i])
    ensures forall j :: 0 <= j < |users| && j != i ==> users[j].verificationToken != Some(token)
  {
    forall j | 0 <= j < |users| && VerificationHolder(token, now)(users[j])
      ensures users[j] == users[i]
    {
      assert j == i;
    }
    FirstOfUnique(users, VerificationHolder(token, now), i);
  }

  lemma ResetHolderUnique(users: seq<User>, token: string, now: int, i: nat)
    requires UniqueResetTokens(users) && i < |users| && HoldsResetToken(users[i], token, now)
    ensures First(users, ResetHolder(token, now)) == Some(users[i])
    ensures forall j :: 0 <= j < |users| && j != i ==> users[j].resetToken != Some(token)
  {
    forall j | 0 <= j < |users| && ResetHolder(token, now)(users[j])
      ensures users[j] == users[i]
    {
      assert j == i;
    }
    FirstOfUnique(users, ResetHolder(token, now), i);
  }

  /** The user with a given email, when emails are unique. */
  lemma EmailOwner(users: seq<User>, i: nat)
    requires UniqueEmails(users) && i < |users|
    ensures First(users, HasEmail(users[i].email)) == Some(users[i])
  {
    forall j | 0 <= j < |users| && HasEmail(users[i].email)(users[j])
      ensures users[j] == users[i]
    {
      assert j == i;
    }
    FirstOfUnique(users, HasEmail(users[i].email), i);
  }

  lemma VerifyEmailPreservesValid(s: Store, token: string, now: int)
    requires Consistent(s)
    ensures Consistent(VerifyEmail(s, token, now).0)
  {
    var holder := First(s.users, VerificationHolder(token, now));
    if holder.Some? {
      UpdateUserPreservesValid(s.users, holder.value.id, MarkVerified(now));
    }
  }

  /** A verification token works once: after it has verified its holder it
      matches nobody, at any later time. */
  lemma VerifyEmailSingleUse(s: Store, token: string, now: int, later: int)
    requires UsersValid(s.users) && VerifyEmail(s, token, now).1
    ensures !VerifyEmail(VerifyEmail(s, token, now).0, token, later).1
  {
    var i :| 0 <= i < |s.users| && HoldsVerificationToken(s.users[i], token, now);
    VerificationHolderUnique(s.users, token, now, i);
    var users' := VerifyEmail(s, token, now).0.users;
    forall j | 0 <= j < |users'|
      ensures !HoldsVerificationToken(users'[j], token, later)
    {
      if j != i {
        assert s.users[j].id != s.users[i].id by {
          if j < i { } else { }
        }
      }
    }
  }

  /** The holder of a used verification token is verified afterwards. */
  lemma VerifyEmailVerifies(s: Store, token: string, now: int, i: nat)
    requires UsersValid(s.users) && i < |s.users| && HoldsVerificationToken(s.users[i], token, now)
    ensures GetUserByEmail(VerifyEmail(s, token, now).0, s.users[i].email) ==
            Some(ApplyUserChange(s.users[i], MarkVerified(now)))
  {
    VerificationHolderUnique(s.users, token, now, i);
    var s' := VerifyEmail(s, token, now).0;
    assert s'.users == UpdateUser(s.users, s.users[i].id, MarkVerified(now));
    assert s'.users[i] == ApplyUserChange(s.users[i], MarkVerified(now));
    UpdateUserPreservesValid(s.users, s.users[i].id, MarkVerified(now));
    EmailOwner(s'.users, i);
  }

  /** The token a registration issues verifies the account up to, and not
      including, 24 hours after registration. */
  lemma VerificationTokenLifetime(s: Store, data: NewUser, id: string, token: string, now: int, t: int)
    requires Consistent(s) && RegisterUser(s, data, id, token, now).Ok?
    requires forall i :: 0 <= i < |s.users| ==> s.users[i].verificationToken != Some(token)
    ensures VerifyEmail(RegisterUser(s, data, id, token, now).value.0, token, t).1 <==>
            t < now + VERIFICATION_TOKEN_LIFETIME
  {
    var (s', u) := RegisterUser(s, data, id, token, now).value;
    assert s'.users[|s.users|] == u;
    if t < now + VERIFICATION_TOKEN_LIFETIME {
      assert HoldsVerificationToken(s'.users[|s.users|], token, t);
    }
  }

  /** Reissuing a verification token revokes the one the user held. */
  lemma ResendRevokesOldToken(s: Store, email: string, previous: string, token: string, now: int, t: int)
    requires UsersValid(s.users) && previous != token
    requires GetUserByEmail(s, email).Some? && !GetUserByEmail(s, email).value.isVerified
    requires GetUserByEmail(s, email).value.verificationToken == Some(previous)
    ensures !VerifyEmail(ResendVerificationEmail(s, email, token, now), previous, t).1
  {
    var u := GetUserByEmail(s, email).value;
    var k :| 0 <= k < |s.users| && s.users[k] == u;
    var users' := ResendVerificationEmail(s, email, token, now).users;
    forall j | 0 <= j < |users'|
      ensures users'[j].verificationToken != Some(previous)
    {
      if s.users[j].id != u.id {
        assert j != k;
        if j < k { } else { }
      }
    }
  }

  /** Requesting a new reset token revokes the one the user held. */
  lemma RequestResetRevokesOldToken(s: Store, email: string, previous: string, token: string, now: int,
                                    password: string, t: int)
    requires UsersValid(s.users) && previous != token
    requires GetUserByEmail(s, email).Some? && GetUserByEmail(s, email).value.resetToken == Some(previous)
    ensures !ResetPassword(RequestPasswordReset(s, email, token, now), previous, password, t).1
  {
    var u := GetUserByEmail(s, email).value;
    var k :| 0 <= k < |s.users| && s.users[k] == u;
    var s' := RequestPasswordReset(s, email, token, now);
    assert s'.users == UpdateUser(s.users, u.id, IssueResetToken(token, now + RESET_TOKEN_LIFETIME, now));
    forall j | 0 <= j < |s'.users|
      ensures s'.users[j].resetToken != Some(previous)
    {
      if s.users[j].id != u.id {
        assert j != k;
        if j < k { } else { }
      }
    }
    UnheldResetToken(s', previous, password, t);
  }

  lemma ResendPreservesValid(s: Store, email: string, token: string, now: int)
    requires Consistent(s)
    requires forall i :: 0 <= i < |s.users| ==> s.users[i].verificationToken != Some(token)
    ensures Consistent(ResendVerificationEmail(s, email, token, now))
  {
    var u := GetUserByEmail(s, email);
    if u.Some? && !u.value.isVerified {
      UpdateUserPreservesValid(s.users, u.value.id, IssueVerificationToken(token, now + VERIFICATION_TOKEN_LIFETIME, now));
    }
  }

  lemma RequestPasswordResetPreservesValid(s: Store, email: string, token: string, now: int)
    requires Consistent(s)
    requires forall i :: 0 <= i < |s.users| ==> s.users[i].resetToken != Some(token)
    ensures Consistent(RequestPasswordReset(s, email, token, now))
  {
    var u := GetUserByEmail(s, email);
    if u.Some? {
      UpdateUserPreservesValid(s.users, u.value.id, IssueResetToken(token, now + RESET_TOKEN_LIFETIME, now));
    }
  }

  lemma ResetPasswordPreservesValid(s: Store, token: string, password: string, now: int)
    requires Consistent(s)
    ensures Consistent(ResetPassword(s, token, password, now).0)
  {
    var holder := First(s.users, ResetHolder(token, now));
    if holder.Some? {
      UpdateUserPreservesValid(s.users, holder.value.id, SetPassword(HashPassword(password), now));
    }
  }

  /** A reset token requested for a known email resets the password up to,
      and not including, one hour after the request. */
  lemma ResetTokenLifetime(s: Store, email: string, token: string, now: int, password: string, t: int)
    requires UsersValid(s.users) && GetUserByEmail(s, email).Some?
    requires forall i :: 0 <= i < |s.users| ==> s.users[i].resetToken != Some(token)
    ensures ResetPassword(RequestPasswordReset(s, email, token, now), token, password, t).1 <==>
            t < now + RESET_TOKEN_LIFETIME
  {
    var u := GetUserByEmail(s, email).value;
    var k :| 0 <= k < |s.users| && s.users[k] == u;
    var users' := RequestPasswordReset(s, email, token, now).users;
    assert users' == UpdateUser(s.users, u.id, IssueResetToken(token, now + RESET_TOKEN_LIFETIME, now));
    forall j | 0 <= j < |users'| && j != k
      ensures users'[j].resetToken != Some(token)
    {
      assert s.users[j].id != u.id;
      assert users'[j] == s.users[j];
    }
    assert users'[k].resetToken == Some(token);
    assert users'[k].resetTokenExpiry == Some(now + RESET_TOKEN_LIFETIME);
    if t < now + RESET_TOKEN_LIFETIME {
      assert HoldsResetToken(users'[k], token, t);
    }
  }

  /** A token no user holds resets nothing. */
  lemma UnheldResetToken(s: Store, token: string, password: string, now: int)
    requires forall j :: 0 <= j < |s.users| ==> s.users[j].resetToken != Some(token)
    ensures !ResetPassword(s, token, password, now).1
  {
  }

  /** Setting one user's password clears that user's reset token and leaves
      the others' tokens as they were. */
  lemma SetPasswordClearsToken(users: seq<User>, id: string, h: PasswordHash, now: int, token: string)
    requires forall j :: 0 <= j < |users| && users[j].id != id ==> users[j].resetToken != Some(token)
    ensures forall j :: 0 <= j < |users| ==> UpdateUser(users, id, SetPassword(h, now))[j].resetToken != Some(token)
  {
  }

  /** A reset token works once. */
  lemma ResetPasswordSingleUse(s: Store, token: string, password: string, now: int, again: string, later: int)
    requires UsersValid(s.users) && ResetPassword(s, token, password, now).1
    ensures !ResetPassword(ResetPassword(s, token, password, now).0, token, again, later).1
  {
    var s' := ResetPassword(s, token, password, now).0;
    var i :| 0 <= i < |s.users| && HoldsResetToken(s.users[i], token, now) &&
             s'.users == UpdateUser(s.users, s.users[i].id, SetPassword(HashPassword(password), now));
    ResetHolderUnique(s.users, token, now, i);
    var id := s.users[i].id;
    assert forall j :: 0 <= j < |s.users| && s.users[j].id != id ==> s.users[j].resetToken != Some(token);
    SetPasswordClearsToken(s.users, id, HashPassword(password), now, token);
    UnheldResetToken(s', token, again, later);
  }

  /** After a reset the holder signs in with the new password and with no
      other. */
  lemma ResetThenLogin(s: Store, token: string, password: string, now: int, i: nat)
    requires UsersValid(s.users) && i < |s.users| && HoldsResetToken(s.users[i], token, now)
    ensures var s' := ResetPassword(s, token, password, now).0;
      && ValidateUserCredentials(s', s.users[i].email, password).Some?
      && ValidateUserCredentials(s', s.users[i].email, password).value.id == s.users[i].id
      && forall other :: other != password ==> ValidateUserCredentials(s', s.users[i].email, other).None?
  {
    ResetHolderUnique(s.users, token, now, i);
    var s' := ResetPassword(s, token, password, now).0;
    var change := SetPassword(HashPassword(password), now);
    assert s'.users == UpdateUser(s.users, s.users[i].id, change);
    assert s'.users[i] == ApplyUserChange(s.users[i], change);
    UpdateUserPreservesValid(s.users, s.users[i].id, change);
    EmailOwner(s'.users, i);
    assert GetUserByEmail(s', s.users[i].email) == Some(s'.users[i]);
  }

  // ---------------------------------------------------------------------
  // Certificates

  lemma CertificateHolderUnique(rows: seq<Registration>, i: nat)
    requires UniqueCertificates(rows) && i < |rows| && rows[i].certificateNumber.Some?
    ensures First(rows, HasCertificate(rows[i].certificateNumber.value)) == Some(rows[i])
  {
    var c := rows[i].certificateNumber.value;
    forall j | 0 <= j < |rows| && HasCertificate(c)(rows[j])
      ensures rows[j] == rows[i]
    {
      assert j == i;
    }
    FirstOfUnique(rows, HasCertificate(c), i);
  }

  /** An approved registration's certificate number verifies as that
      registration, unless an approved birth registration carries the same
      number (births are looked up first). */
  lemma VerifyCertificateComplete(s: Store, k: Kind, i: nat, c: string)
    requires Consistent(s) && i < |TableOf(s, k).rows|
    requires TableOf(s, k).rows[i].certificateNumber == Some(c) && TableOf(s, k).rows[i].status == APPROVED
    requires k == Death ==> forall j :: 0 <= j < |s.births.rows| && s.births.rows[j].certificateNumber == Some(c) ==>
                                          s.births.rows[j].status != APPROVED
    ensures VerifyCertificate(s, c) == Issued(k, TableOf(s, k).rows[i])
  {
    CertificateHolderUnique(TableOf(s, k).rows, i);
    if k == Death {
      var b := First(s.births.rows, HasCertificate(c));
      if b.Some? {
        var j :| 0 <= j < |s.births.rows| && s.births.rows[j] == b.value;
      }
    }
  }

  /** A number verifies exactly when some approved registration carries it. */
  lemma VerifyCertificateIff(s: Store, c: string)
    requires Consistent(s)
    ensures VerifyCertificate(s, c).Valid? <==>
      (exists i :: 0 <= i < |s.births.rows| && s.births.rows[i].certificateNumber == Some(c) && s.births.rows[i].status == APPROVED) ||
      (exists i :: 0 <= i < |s.deaths.rows| && s.deaths.rows[i].certificateNumber == Some(c) && s.deaths.rows[i].status == APPROVED)
  {
    if i :| 0 <= i < |s.births.rows| && s.births.rows[i].certificateNumber == Some(c) && s.births.rows[i].status == APPROVED {
      VerifyCertificateComplete(s, Birth, i, c);
    } else if i :| 0 <= i < |s.deaths.rows| && s.deaths.rows[i].certificateNumber == Some(c) && s.deaths.rows[i].status == APPROVED {
      VerifyCertificateComplete(s, Death, i, c);
    }
  }
}

=== FILE: query.dfy ===
/** The query shapes the storage layer uses, over rows kept in insertion
    order: `where` (Filter), a single-row `select ... where` destructured as
    `const [row] = ...` (First), and `orderBy(desc(createdAt))` or a
    newest-first comparator sort (SortDesc). */
module Query {
  import opened Base

  /** Keys never increase along `s`: newest first when the key is a creation
      time. */
  predicate SortedDesc<T>(s: seq<T>, key: T -> int) {
    forall i, j :: 0 <= i < j < |s| ==> key(s[i]) >= key(s[j])
  }

  lemma SortedTail<T>(s: seq<T>, key: T -> int)
    requires SortedDesc(s, key) && |s| > 0
    ensures SortedDesc(s[1..], key)
  {
    forall i, j | 0 <= i < j < |s[1..]|
      ensures key(s[1..][i]) >= key(s[1..][j])
    {
      assert s[1..][i] == s[i + 1] && s[1..][j] == s[j + 1];
    }
  }

  /** An element no older than any of a newest-first sequence can head it. */
  lemma SortedCons<T>(x: T, s: seq<T>, key: T -> int)
    requires SortedDesc(s, key) && forall m | 0 <= m < |s| :: key(s[m]) <= key(x)
    ensures SortedDesc([x] + s, key)
  {
    var r := [x] + s;
    forall i, j | 0 <= i < j < |r|
      ensures key(r[i]) >= key(r[j])
    {
      assert r[j] == s[j - 1];
      if i > 0 {
        assert r[i] == s[i - 1];
      }
    }
  }

  /** The elements of `s` that satisfy `p`, in their original order: each
      kept element as often as in `s`, every other element not at all. */
  function Filter<T(!new)>(s: seq<T>, p: T -> bool): (r: seq<T>)
    ensures |r| <= |s|
    ensures forall x :: x in r <==> x in s && p(x)
    ensures forall x :: multiset(r)[x] == if p(x) then multiset(s)[x] else 0
  {
    if |s| == 0 then []
    else
      assert s == [s[0]] + s[1..];
      (if p(s[0]) then [s[0]] else []) + Filter(s[1..], p)
  }

  /** Filtering keeps a newest-first sequence newest-first. */
  lemma {:induction false} FilterKeepsOrder<T(!new)>(s: seq<T>, p: T -> bool, key: T -> int)
    requires SortedDesc(s, key)
    ensures SortedDesc(Filter(s, p), key)
  {
    if |s| > 0 {
      var tail := s[1..];
      SortedTail(s, key);
      FilterKeepsOrder(tail, p, key);
      var rest := Filter(tail, p);
      if p(s[0]) {
        assert Filter(s, p) == [s[0]] + rest;
        FilterBelow(tail, p, key, key(s[0]));
        SortedCons(s[0], rest, key);
      } else {
        assert Filter(s, p) == rest;
      }
    }
  }

  /** Every element `Filter` keeps is bounded by whatever bounds `s`. */
  lemma FilterBelow<T(!new)>(s: seq<T>, p: T -> bool, key: T -> int, b: int)
    requires forall i | 0 <= i < |s| :: key(s[i]) <= b
    ensures forall m | 0 <= m < |Filter(s, p)| :: key(Filter(s, p)[m]) <= b
  {
    var r := Filter(s, p);
    forall m | 0 <= m < |r|
      ensures key(r[m]) <= b
    {
      assert r[m] in s;
      var k :| 0 <= k < |s| && s[k] == r[m];
    }
  }

  /** Two predicates that never hold together select at most `|s|` elements
      between them. */
  lemma {:induction false} FilterDisjoint<T(!new)>(s: seq<T>, p: T -> bool, q: T -> bool)
    requires forall x :: !(p(x) && q(x))
    ensures |Filter(s, p)| + |Filter(s, q)| <= |s|
  {
    if |s| > 0 {
      FilterDisjoint(s[1..], p, q);
    }
  }

  /** Places `x` before the first element that is not newer than it. */
  function InsertDesc<T>(x: T, s: seq<T>, key: T -> int): (r: seq<T>)
    requires SortedDesc(s, key)
    ensures multiset(r) == multiset(s) + multiset{x}
    ensures SortedDesc(r, key)
  {
    if |s| == 0 then [x]
    else if key(s[0]) <= key(x) then [x] + s
    else
      assert s == [s[0]] + s[1..];
      SortedTail(s, key);
      var t := InsertDesc(x, s[1..], key);
      assert forall k :: 0 <= k < |t| ==> key(t[k]) <= key(s[0]) by {
        forall k | 0 <= k < |t|
          ensures key(t[k]) <= key(s[0])
        {
          assert t[k] in multiset(t);
          if t[k] != x {
            assert t[k] in multiset(s[1..]);
            var m :| 0 <= m < |s[1..]| && s[1..][m] == t[k];
            assert s[m + 1] == t[k];
          }
        }
      }
      SortedCons(s[0], t, key);
      [s[0]] + t
  }

  /** Newest-first insertion sort: a permutation of `s` ordered by
      non-increasing key. */
  function SortDesc<T>(s: seq<T>, key: T -> int): (r: seq<T>)
    ensures multiset(r) == multiset(s)
    ensures SortedDesc(r, key)
  {
    if |s| == 0 then []
    else
      assert s == [s[0]] + s[1..];
      InsertDesc(s[0], SortDesc(s[1..], key), key)
  }

  /** A sorted permutation holds exactly the elements of its input, as often
      as the input does. */
  lemma SortDescContents<T>(s: seq<T>, key: T -> int)
    ensures |SortDesc(s, key)| == |s|
    ensures forall x :: x in SortDesc(s, key) <==> x in s
  {
    var r := SortDesc(s, key);
    assert |multiset(r)| == |multiset(s)|;
    forall x
      ensures x in r <==> x in s
    {
      assert x in r <==> x in multiset(r);
      assert x in s <==> x in multiset(s);
    }
  }

  /** The first element of `s` that satisfies `p`, if any. */
  function First<T>(s: seq<T>, p: T -> bool): (r: Option<T>)
    ensures r.Some? ==> r.value in s && p(r.value)
    ensures r.None? <==> forall i :: 0 <= i < |s| ==> !p(s[i])
    ensures r.Some? ==> exists i :: 0 <= i < |s| && s[i] == r.value && forall j :: 0 <= j < i ==> !p(s[j])
  {
    if |s| == 0 then None
    else if p(s[0]) then Some(s[0])
    else
      var r := First(s[1..], p);
      assert r.Some? ==> exists i :: 0 <= i < |s| && s[i] == r.value && forall j :: 0 <= j < i ==> !p(s[j]) by {
        if r.Some? {
          var i :| 0 <= i < |s[1..]| && s[1..][i] == r.value && forall j :: 0 <= j < i ==> !p(s[1..][j]);
          assert s[i + 1] == r.value;
          forall j | 0 <= j < i + 1
            ensures !p(s[j])
          {
            if j > 0 {
              assert s[j] == s[1..][j - 1];
            }
          }
        }
      }
      r
  }

  /** When at most one element satisfies `p`, `First` finds that element
      wherever it sits. */
  lemma FirstOfUnique<T>(s: seq<T>, p: T -> bool, i: nat)
    requires i < |s| && p(s[i])
    requires forall j :: 0 <= j < |s| && p(s[j]) ==> s[j] == s[i]
    ensures First(s, p) == Some(s[i])
  {
  }
}

=== FILE: routes.dfy ===
/** The registry's REST handlers for registrations, documents, statistics,
    certificate verification and the review queue. Each handler takes the
    store and the request's session and answers with the new store and a
    response; the clock, `Math.random()` text and the year are parameters. */
module Routes {
  import opened Base
  import opened Text
  import opened Dates
  import opened Query
  import opened Schema
  import opened Storage
  import opened Invariant
  import opened Auth

  /** The role gate of the review endpoints: the two reviewing roles pass,
      the public and health-worker roles do not. */
  function IsAdminOrRegistrar(u: User): (r: bool)
    ensures u.role == ADMIN || u.role == REGISTRAR ==> r
    ensures u.role == PUBLIC || u.role == HEALTH_WORKER ==> !r
    ensures r ==> u.role in {ADMIN, REGISTRAR}
  {
    u.role == ADMIN || u.role == REGISTRAR
  }

  /** Who may see a registration: reviewers see every one, anybody else only
      the ones they submitted. */
  function HasRegistrationAccess(u: User, submittedBy: string): (r: bool)
    ensures IsAdminOrRegistrar(u) ==> r
    ensures !IsAdminOrRegistrar(u) ==> (r <==> u.id == submittedBy)
  {
    IsAdminOrRegistrar(u) || u.id == submittedBy
  }

  /** The lower-case name of a kind, as in the `type` tag of the review queue
      and in the handlers' messages. */
  function KindName(k: Kind): string {
    match k
    case Birth => "birth"
    case Death => "death"
  }

  function OwnedBy(id: string): Registration -> bool {
    (r: Registration) => r.submittedBy == id
  }

  /** `GET /api/{birth,death}-registrations`: every registration, newest
      first, for a reviewer; otherwise only the caller's own. */
  function ListRegistrations(s: Store, session: Session, k: Kind): (r: Response<seq<Registration>>)
    ensures r.Failure? <==> Authenticate(s, session).None?
    ensures r.Failure? ==> r == Fail(401, UNAUTHORIZED)
    ensures r.Success? ==> var u := Authenticate(s, session).value;
      && SortedDesc(r.body, CreationTime)
      && (forall x :: x in r.body <==> x in TableOf(s, k).rows && HasRegistrationAccess(u, x.submittedBy))
      && forall x :: multiset(r.body)[x] ==
           if HasRegistrationAccess(u, x.submittedBy) then multiset(TableOf(s, k).rows)[x] else 0
  {
    var u := Authenticate(s, session);
    if u.None? then Fail(401, UNAUTHORIZED)
    else
      var all := GetAll(s, k);
      SortDescContents(TableOf(s, k).rows, CreationTime);
      if IsAdminOrRegistrar(u.value) then Success(all)
      else
        FilterKeepsOrder(all, OwnedBy(u.value.id), CreationTime);
        Success(Filter(all, OwnedBy(u.value.id)))
  }

  /** The submitter of a registration sees it in their own listing. */
  lemma SubmitterSeesOwnRegistration(s: Store, session: Session, k: Kind, body: Body, year: nat, now: int)
    requires CreateRegistrationRoute(s, session, k, body, year, now).1.Success?
    ensures var (s', r) := CreateRegistrationRoute(s, session, k, body, year, now);
      ListRegistrations(s', session, k).Success? && r.body in ListRegistrations(s', session, k).body
  {
    var (s', r) := CreateRegistrationRoute(s, session, k, body, year, now);
    assert s'.users == s.users;
  }

  /** `POST /api/{birth,death}-registrations`: the body is validated with the
      submitter forced to the session's user; 400 lists the failing fields. */
  function CreateRegistrationRoute(s: Store, session: Session, k: Kind, body: Body, year: nat, now: int): (r: (Store, Response<Registration>))
    ensures Authenticate(s, session).None? ==> r == (s, Fail(401, UNAUTHORIZED))
    ensures r.1.Failure? ==> r.0 == s
    ensures Authenticate(s, session).Some? ==>
      var u := Authenticate(s, session).value;
      var b := body[SubmittedBy := JString(u.id)];
      && (r.1.Failure? && r.1.code == 400 <==> exists f :: f in Columns(k) && !Accepts(f, b))
      && (r.1.Failure? && r.1.code == 400 ==> r.1.invalid == set f | f in Columns(k) && !Accepts(f, b))
      && (r.1.Failure? && r.1.code != 400 ==> r.1 == Fail(500, "Failed to create " + KindName(k) + " registration"))
      && (ParseInsert(k, b).Ok? && !BodyDatesValid(k, body) ==> r.1 == Fail(500, "Failed to create " + KindName(k) + " registration"))
      && (r.1.Success? ==>
            && ParseInsert(k, b).Ok?
            && r.1.body.details == ParseInsert(k, b).value.details
            && r.1.body.id == TableOf(s, k).nextId
            && r.1.body.submittedBy == u.id
            && r.1.body.status == PENDING
            && r.1.body.certificateNumber.None?
            && r.1.body.details.OfKind() == k
            && TableOf(r.0, k).rows == TableOf(s, k).rows + [r.1.body]
            && TableOf(r.0, OtherKind(k)) == TableOf(s, OtherKind(k))
            && r.0.users == s.users && r.0.documents == s.documents && r.0.nextDocumentId == s.nextDocumentId)
  {
    var u := Authenticate(s, session);
    if u.None? then (s, Fail(401, UNAUTHORIZED))
    else
      var b := body[SubmittedBy := JString(u.value.id)];
      match ParseInsert(k, b)
      case Err(bad) => (s, Failure(400, "Validation error", bad))
      case Ok(ins) =>
        assert ins.submittedBy == u.value.id;
        SubmitterKeepsBodyDates(k, body, JString(u.value.id));
        DatesValidFromBody(k, b);
        match CreateRegistration(s, k, ins, year, now)
        case Err(_) => (s, Fail(500, "Failed to create " + KindName(k) + " registration"))
        case Ok((s', rec)) => (s', Success(rec))
  }

  /** A date left blank in the registration form arrives as the empty
      string. The insert schema accepts it as text, but the `date` column
      refuses it, so the submission is answered 500 and nothing is stored. */
  lemma BlankDateRefused(s: Store, session: Session, k: Kind, body: Body, f: Field, year: nat, now: int)
    requires Authenticate(s, session).Some?
    requires ParseInsert(k, body[SubmittedBy := JString(Authenticate(s, session).value.id)]).Ok?
    requires f in DateColumns(k) && f in body && body[f] == JString("")
    ensures CreateRegistrationRoute(s, session, k, body, year, now) ==
      (s, Fail(500, "Failed to create " + KindName(k) + " registration"))
  {
    assert OptText(body, f) == Some("") && !IsDate("");
    assert !BodyDatesValid(k, body);
  }

  /** A parsed path id the database accepts as an `integer` parameter: not
      `NaN` (`None`) and within the 32-bit range of the id columns. */
  predicate IdParameter(id: Option<int>) {
    id.Some? && INT4_MIN <= id.value <= INT4_MAX
  }

  /** `GET /api/birth-registrations/:id`; any authenticated user may read any
      registration. `id` is `parseInt` of the path parameter, `None` for
      `NaN`; the database refuses `NaN` and ids outside the 32-bit range,
      and the handler then answers 500. */
  function GetBirthRegistrationRoute(s: Store, session: Session, id: Option<int>): (r: Response<Registration>)
    ensures Authenticate(s, session).None? ==> r == Fail(401, UNAUTHORIZED)
    ensures Authenticate(s, session).Some? && !IdParameter(id) ==> r == Fail(500, "Failed to fetch birth registration")
    ensures Authenticate(s, session).Some? && IdParameter(id) ==>
      && (r.Success? <==> exists i :: 0 <= i < |s.births.rows| && s.births.rows[i].id == id.value)
      && (r.Success? ==> r.body in s.births.rows && r.body.id == id.value)
      && (r.Failure? ==> r == Fail(404, "Birth registration not found"))
  {
    if Authenticate(s, session).None? then Fail(401, UNAUTHORIZED)
    else if !IdParameter(id) then Fail(500, "Failed to fetch birth registration")
    else
      var row := GetRegistration(s, Birth, id.value);
      if row.None? then Fail(404, "Birth registration not found") else Success(row.value)
  }

  function CertificatePrefix(k: Kind): string {
    match k
    case Birth => "BC"
    case Death => "DC"
  }

  /** A certificate number: the prefix, `Date.now()` in decimal, then at
      most four characters of `Math.random().toString(36)` after its "0.",
      upper-cased. */
  function CertificateNumber(k: Kind, certMs: nat, random: string): (c: string)
    ensures 2 + |Decimal(certMs)| <= |c| <= 6 + |Decimal(certMs)|
    ensures c[..2] == CertificatePrefix(k) && c[2..2 + |Decimal(certMs)|] == Decimal(certMs)
  {
    var p := CertificatePrefix(k);
    var d := Decimal(certMs);
    var t := ToUpper(Substr(random, 2, 4));
    var c := p + d + t;
    assert c[..2] == p && c[2..2 + |d|] == d;
    c
  }

  /** A certificate number reads back as its prefix, the issuing clock value
      and four upper-case alphanumeric characters. */
  lemma CertificateNumberFormat(k: Kind, certMs: nat, random: string)
    requires |random| >= 6 && forall i :: 2 <= i < |random| ==> IsBase36Lower(random[i])
    ensures var c := CertificateNumber(k, certMs, random);
      && |c| == 6 + |Decimal(certMs)|
      && c[..2] == CertificatePrefix(k)
      && AllDigits(c[2..|c| - 4]) && ParseDecimal(c[2..|c| - 4]) == certMs
      && forall i :: |c| - 4 <= i < |c| ==> IsUpperAlphanumeric(c[i])
  {
    var p, d, t := CertificatePrefix(k), Decimal(certMs), ToUpper(Substr(random, 2, 4));
    var c := p + d + t;
    assert c == CertificateNumber(k, certMs, random);
    assert Substr(random, 2, 4) == random[2..6];
    UpperBase36(random[2..6]);
    DecimalRoundTrip(certMs);
    assert c[..2] == p;
    assert c[2..|c| - 4] == d;
    forall i | |c| - 4 <= i < |c|
      ensures IsUpperAlphanumeric(c[i])
    {
      assert c[i] == t[i - |c| + 4];
    }
  }

  /** The JSON body of a status update: each field may be missing or
      `null`. */
  datatype StatusRequest = StatusRequest(status: Input<string>, reviewNotes: Input<string>)

  /** The certificate number a status update hands to the storage layer: a
      new one when approving a registration that exists, none otherwise. */
  function IssuedNumber(s: Store, k: Kind, id: int, status: Input<string>, certMs: nat, random: string): Option<string> {
    if status == Given(APPROVED) && GetRegistration(s, k, id).Some? then Some(CertificateNumber(k, certMs, random)) else None
  }

  function UpdateFailed(k: Kind): string {
    "Failed to update " + KindName(k) + " registration status"
  }

  /** `PATCH /api/{birth,death}-registrations/:id/status`: reviewers only.
      `id` is `parseInt` of the path parameter, `None` for `NaN`; `certMs` is
      the `Date.now()` in the certificate number and `now` the `new Date()`
      of the update. Approving an existing registration issues a new
      certificate number; a missing status or note leaves the column as it
      is, a `null` note clears it, and a `null` status, an id the database
      refuses (`NaN` or outside the 32-bit range) or a clashing number
      answers 500 with no change. */
  function PatchStatus(s: Store, session: Session, k: Kind, id: Option<int>, req: StatusRequest,
                       certMs: nat, random: string, now: int): (r: (Store, Response<Option<Registration>>))
    ensures Authenticate(s, session).None? ==> r == (s, Fail(401, UNAUTHORIZED))
    ensures Authenticate(s, session).Some? && !IsAdminOrRegistrar(Authenticate(s, session).value) ==>
      r == (s, Fail(403, "Insufficient permissions"))
    ensures r.1.Failure? ==> r.0 == s
    ensures Authenticate(s, session).Some? && IsAdminOrRegistrar(Authenticate(s, session).value) ==>
      && (r.1.Failure? ==> r.1 == Fail(500, UpdateFailed(k)))
      && (r.1.Success? <==>
            && IdParameter(id)
            && !ClearsStatus(TableOf(s, k).rows, id.value, req.status)
            && !CertificateClash(TableOf(s, k).rows, id.value, IssuedNumber(s, k, id.value, req.status, certMs, random)))
    ensures r.1.Success? ==>
      var u := Authenticate(s, session).value;
      var before := GetRegistration(s, k, id.value);
      var cert := IssuedNumber(s, k, id.value, req.status, certMs, random);
      && IsAdminOrRegistrar(u)
      && TableOf(r.0, k).rows == ReviewRows(TableOf(s, k).rows, id.value, Review(req.status, u.id, req.reviewNotes, cert, now))
      && TableOf(r.0, k).nextId == TableOf(s, k).nextId
      && TableOf(r.0, OtherKind(k)) == TableOf(s, OtherKind(k))
      && r.0.users == s.users && r.0.documents == s.documents && r.0.nextDocumentId == s.nextDocumentId
      && (r.1.body.None? <==> before.None?)
  {
    var u := Authenticate(s, session);
    if u.None? then (s, Fail(401, UNAUTHORIZED))
    else if !IsAdminOrRegistrar(u.value) then (s, Fail(403, "Insufficient permissions"))
    else if !IdParameter(id) then (s, Fail(500, UpdateFailed(k)))
    else
      var cert := IssuedNumber(s, k, id.value, req.status, certMs, random);
      match UpdateStatus(s, k, id.value, Review(req.status, u.value.id, req.reviewNotes, cert, now))
      case Err(_) => (s, Fail(500, UpdateFailed(k)))
      case Ok((s', updated)) => (s', Success(updated))
  }

  /** A reviewer's update of an existing row, with a status that is not
      `null` and a number no other row carries, succeeds and returns the row
      with the requested status, the reviewer, the notes as the request sets
      them, a new certificate number exactly when approving, and the update
      time; its identity, details and submitter as before. */
  lemma PatchedRow(s: Store, session: Session, k: Kind, id: Option<int>, req: StatusRequest,
                   certMs: nat, random: string, now: int)
    requires Authenticate(s, session).Some? && IsAdminOrRegistrar(Authenticate(s, session).value)
    requires IdParameter(id) && GetRegistration(s, k, id.value).Some? && !req.status.Null?
    requires !CertificateClash(TableOf(s, k).rows, id.value, IssuedNumber(s, k, id.value, req.status, certMs, random))
    ensures PatchStatus(s, session, k, id, req, certMs, random, now).1.Success?
    ensures var before := GetRegistration(s, k, id.value).value;
      var after := PatchStatus(s, session, k, id, req, certMs, random, now).1.body;
      && after.Some?
      && after.value.id == id.value && after.value.applicationId == before.applicationId
      && after.value.details == before.details && after.value.submittedBy == before.submittedBy
      && after.value.createdAt == before.createdAt
      && (req.status.Given? ==> after.value.status == req.status.value)
      && (req.status.Absent? ==> after.value.status == before.status)
      && after.value.reviewedBy == Some(Authenticate(s, session).value.id)
      && (req.reviewNotes.Absent? ==> after.value.reviewNotes == before.reviewNotes)
      && (req.reviewNotes.Null? ==> after.value.reviewNotes.None?)
      && (req.reviewNotes.Given? ==> after.value.reviewNotes == Some(req.reviewNotes.value))
      && after.value.certificateNumber ==
           (if req.status == Given(APPROVED) then Some(CertificateNumber(k, certMs, random)) else before.certificateNumber)
      && after.value.updatedAt == now
  {
    var u := Authenticate(s, session).value;
    var cert := IssuedNumber(s, k, id.value, req.status, certMs, random);
    var rv := Review(req.status, u.id, req.reviewNotes, cert, now);
    var before := GetRegistration(s, k, id.value).value;
    assert UpdateStatus(s, k, id.value, rv).Ok?;
    assert PatchStatus(s, session, k, id, req, certMs, random, now).1.body == UpdateStatus(s, k, id.value, rv).value.1;
  }

  // ---------------------------------------------------------------------
  // Documents

  /** The upload limit of five megabytes. */
  const MAX_FILE_SIZE: nat := 5 * 1024 * 1024

  const ALLOWED_TYPES: set<string> := {"image/jpeg", "image/png", "application/pdf"}

  /** A file the multipart parser has stored. */
  datatype UploadedFile = UploadedFile(originalName: string, path: string, size: nat, mimeType: string)

  /** The text fields of the upload form; each may be missing. */
  datatype UploadForm = UploadForm(applicationId: Option<string>, applicationType: Option<string>, documentType: Option<string>)

  /** The upload middleware: the file filter refuses a type outside the
      allow-list, then the size limit refuses more than five megabytes; both
      errors reach the default error handler, which answers 500. */
  function UploadFilter(file: UploadedFile): (r: Option<string>)
    ensures r.None? <==> file.mimeType in ALLOWED_TYPES && file.size <= MAX_FILE_SIZE
    ensures file.mimeType !in ALLOWED_TYPES ==> r == Some("Invalid file type. Only JPEG, PNG, and PDF files are allowed.")
  {
    if file.mimeType !in ALLOWED_TYPES then Some("Invalid file type. Only JPEG, PNG, and PDF files are allowed.")
    else if file.size > MAX_FILE_SIZE then Some("File too large")
    else None
  }

  /** `POST /api/documents/upload`: the upload middleware's refusal comes
      first, then a missing file; an accepted file is stored with the form's
      fields, and a missing form field meets its not-null column. */
  function UploadDocument(s: Store, session: Session, file: Option<UploadedFile>, form: UploadForm, now: int): (r: (Store, Response<Document>))
    ensures Authenticate(s, session).None? ==> r == (s, Fail(401, UNAUTHORIZED))
    ensures r.1.Failure? ==> r.0 == s
    ensures file.None? && Authenticate(s, session).Some? ==> r.1 == Fail(400, "No file uploaded")
    ensures Authenticate(s, session).Some? && file.Some? && UploadFilter(file.value).Some? ==>
      r.1 == Fail(500, UploadFilter(file.value).value)
    ensures Authenticate(s, session).Some? && file.Some? && UploadFilter(file.value).None? ==>
      && (r.1.Success? <==> form.applicationId.Some? && form.applicationType.Some? && form.documentType.Some?)
      && (r.1.Failure? ==> r.1 == Fail(500, "Failed to upload document"))
    ensures r.1.Success? ==>
      && file.Some? && file.value.mimeType in ALLOWED_TYPES && file.value.size <= MAX_FILE_SIZE
      && form.applicationId == Some(r.1.body.applicationId)
      && form.applicationType == Some(r.1.body.applicationType)
      && form.documentType == Some(r.1.body.documentType)
      && r.1.body.uploadedBy == Authenticate(s, session).value.id
      && r.1.body.fileName == file.value.originalName && r.1.body.fileSize == Some(file.value.size as int)
      && r.1.body.id == s.nextDocumentId
      && r.0.documents == s.documents + [r.1.body] && r.0.nextDocumentId == s.nextDocumentId + 1
    ensures r.0.births == s.births && r.0.deaths == s.deaths && r.0.users == s.users
  {
    var u := Authenticate(s, session);
    if u.None? then (s, Fail(401, UNAUTHORIZED))
    else if file.Some? && UploadFilter(file.value).Some? then (s, Fail(500, UploadFilter(file.value).value))
    else if file.None? then (s, Fail(400, "No file uploaded"))
    else
      var f := file.value;
      var d := DocumentInsert(form.applicationId, form.applicationType, form.documentType,
                              f.originalName, f.path, Some(f.size as int), Some(f.mimeType), u.value.id);
      match CreateDocument(s, d, now)
      case Err(_) => (s, Fail(500, "Failed to upload document"))
      case Ok((s', doc)) => (s', Success(doc))
  }

  /** `GET /api/documents/:applicationId/:applicationType`: every document of
      the application, for any authenticated user. */
  function ListDocuments(s: Store, session: Session, appId: string, appType: string): (r: Response<seq<Document>>)
    ensures r.Failure? <==> Authenticate(s, session).None?
    ensures r.Failure? ==> r == Fail(401, UNAUTHORIZED)
    ensures r.Success? ==> forall d :: d in r.body <==> d in s.documents && d.applicationId == appId && d.applicationType == appType
    ensures r.Success? ==>
      forall d :: multiset(r.body)[d] == if d.applicationId == appId && d.applicationType == appType then multiset(s.documents)[d] else 0
  {
    if Authenticate(s, session).None? then Fail(401, UNAUTHORIZED)
    else Success(DocumentsByApplication(s, appId, appType))
  }

  /** `GET /api/statistics`, for any authenticated user. */
  function Statistics(s: Store, session: Session): (r: Response<Stats>)
    ensures r.Failure? <==> Authenticate(s, session).None?
    ensures r.Failure? ==> r == Fail(401, UNAUTHORIZED)
    ensures r.Success? ==> r.body == RegistrationStats(s)
    ensures r.Success? ==> r.body.pendingApplications + r.body.thisMonthRegistrations <= r.body.totalBirths + r.body.totalDeaths
    ensures r.Success? ==> r.body.totalBirths == |s.births.rows| && r.body.totalDeaths == |s.deaths.rows|
  {
    if Authenticate(s, session).None? then Fail(401, UNAUTHORIZED)
    else
      SortDescContents(s.births.rows, CreationTime);
      SortDescContents(s.deaths.rows, CreationTime);
      Success(RegistrationStats(s))
  }

  /** An uploaded document is listed under the application it names. */
  lemma UploadThenListed(s: Store, session: Session, file: Option<UploadedFile>, form: UploadForm, now: int)
    requires UploadDocument(s, session, file, form, now).1.Success?
    ensures var (s', r) := UploadDocument(s, session, file, form, now);
      var listed := ListDocuments(s', session, r.body.applicationId, r.body.applicationType);
      listed.Success? && r.body in listed.body
  {
    var (s', r) := UploadDocument(s, session, file, form, now);
    assert s'.users == s.users;
    assert r.body in s'.documents;
  }

  // ---------------------------------------------------------------------
  // Certificate verification

  /** `GET /api/verify/:certificateNumber`: public, so no session is
      consulted; the body is the storage lookup's answer, an invalid number
      included. */
  function VerifyRoute(s: Store, certificateNumber: string): (r: Response<Verification>)
    ensures r.Success?
    ensures r.body.Valid? ==>
      && r.body.issuingOffice == ISSUING_OFFICE
      && exists k: Kind, x :: x in TableOf(s, k).rows && x.certificateNumber == Some(certificateNumber) && x.status == APPROVED
           && r.body == Issued(k, x)
  {
    Success(VerifyCertificate(s, certificateNumber))
  }

  /** In a consistent store the public check accepts a number exactly when
      an approved registration of either kind carries it. */
  lemma VerifyRouteIff(s: Store, c: string)
    requires Consistent(s)
    ensures VerifyRoute(s, c).body.Valid? <==>
      (exists i :: 0 <= i < |s.births.rows| && s.births.rows[i].certificateNumber == Some(c) && s.births.rows[i].status == APPROVED) ||
      (exists i :: 0 <= i < |s.deaths.rows| && s.deaths.rows[i].certificateNumber == Some(c) && s.deaths.rows[i].status == APPROVED)
  {
    VerifyCertificateIff(s, c);
  }

  // ---------------------------------------------------------------------
  // Review queue

  /** A pending registration tagged with its kind. */
  datatype PendingEntry = PendingEntry(kind: Kind, registration: Registration)

  function EntryTime(e: PendingEntry): int {
    e.registration.createdAt
  }

  function Tag(k: Kind, rows: seq<Registration>): (r: seq<PendingEntry>)
    ensures |r| == |rows|
    ensures forall e :: e in r <==> e.kind == k && e.registration in rows
  {
    var r := seq(|rows|, i requires 0 <= i < |rows| => PendingEntry(k, rows[i]));
    assert forall i :: 0 <= i < |rows| ==> r[i].registration == rows[i];
    r
  }

  /** The pending births followed by the pending deaths, tagged: exactly the
      pending registrations of both tables, as many as the statistics count. */
  function PendingEntries(s: Store): (r: seq<PendingEntry>)
    ensures |r| == RegistrationStats(s).pendingApplications
    ensures forall e :: e in r <==> e.registration in TableOf(s, e.kind).rows && e.registration.status == PENDING
  {
    PendingMembers(s);
    Tag(Birth, GetByStatus(s, Birth, PENDING)) + Tag(Death, GetByStatus(s, Death, PENDING))
  }

  lemma PendingMembers(s: Store)
    ensures forall e: PendingEntry :: e in Tag(Birth, GetByStatus(s, Birth, PENDING)) + Tag(Death, GetByStatus(s, Death, PENDING)) <==>
      e.registration in TableOf(s, e.kind).rows && e.registration.status == PENDING
  {
    var births := Tag(Birth, GetByStatus(s, Birth, PENDING));
    var deaths := Tag(Death, GetByStatus(s, Death, PENDING));
    forall e: PendingEntry
      ensures e in births + deaths <==> e.registration in TableOf(s, e.kind).rows && e.registration.status == PENDING
    {
      assert e in births + deaths <==> e in births || e in deaths;
    }
  }

  /** `GET /api/pending-applications`: reviewers only; the pending births
      and deaths together, newest first. */
  function PendingApplications(s: Store, session: Session): (r: Response<seq<PendingEntry>>)
    ensures Authenticate(s, session).None? ==> r == Fail(401, UNAUTHORIZED)
    ensures Authenticate(s, session).Some? && !IsAdminOrRegistrar(Authenticate(s, session).value) ==>
      r == Fail(403, "Insufficient permissions")
    ensures r.Success? ==>
      && SortedDesc(r.body, EntryTime)
      && multiset(r.body) == multiset(PendingEntries(s))
      && |r.body| == RegistrationStats(s).pendingApplications
      && forall e :: e in r.body <==> e.registration in TableOf(s, e.kind).rows && e.registration.status == PENDING
  {
    var u := Authenticate(s, session);
    if u.None? then Fail(401, UNAUTHORIZED)
    else if !IsAdminOrRegistrar(u.value) then Fail(403, "Insufficient permissions")
    else
      var entries := PendingEntries(s);
      SortDescContents(entries, EntryTime);
      Success(SortDesc(entries, EntryTime))
  }

  // ---------------------------------------------------------------------
  // End to end

  /** The row of a given id in a consistent table is its only row with that
      id. */
  lemma RowById(s: Store, k: Kind, n: nat)
    requires Consistent(s) && n < |TableOf(s, k).rows|
    ensures GetRegistration(s, k, TableOf(s, k).rows[n].id) == Some(TableOf(s, k).rows[n])
  {
    var rows := TableOf(s, k).rows;
    forall i | 0 <= i < |rows| && HasId(rows[n].id)(rows[i])
      ensures rows[i] == rows[n]
    {
      assert i == n;
    }
    FirstOfUnique(rows, HasId(rows[n].id), n);
  }

  /** A submission that passes the insert schema is stored exactly when its
      dates are dates; it then becomes the last row of its table with the
      next application id, and the store stays consistent. */
  lemma SubmitAppends(s: Store, k: Kind, submitter: Session, body: Body, year: nat, now: int)
    requires Consistent(s) && 1000 <= year <= 9999
    requires Authenticate(s, submitter).Some?
    requires ParseInsert(k, body[SubmittedBy := JString(Authenticate(s, submitter).value.id)]).Ok?
    ensures CreateRegistrationRoute(s, submitter, k, body, year, now).1.Success? <==> BodyDatesValid(k, body)
    ensures BodyDatesValid(k, body) ==>
      var (s1, created) := CreateRegistrationRoute(s, submitter, k, body, year, now);
      && created.body.applicationId == ApplicationIdFor(k, year, |TableOf(s, k).rows|)
      && Consistent(s1)
      && TableOf(s1, k).rows == TableOf(s, k).rows + [created.body]
      && created.body.details == ParseInsert(k, body[SubmittedBy := JString(Authenticate(s, submitter).value.id)]).value.details
      && TableOf(s1, OtherKind(k)) == TableOf(s, OtherKind(k))
      && s1.users == s.users && s1.documents == s.documents && s1.nextDocumentId == s.nextDocumentId
  {
    var u := Authenticate(s, submitter).value;
    var b := body[SubmittedBy := JString(u.id)];
    var ins := ParseInsert(k, b).value;
    SubmitterKeepsBodyDates(k, body, JString(u.id));
    DatesValidFromBody(k, b);
    CreateRegistrationSucceeds(s, k, ins, year, now);
  }

  /** No registration of either kind carries the number. */
  predicate CertificateUnused(s: Store, c: string) {
    && (forall i :: 0 <= i < |s.births.rows| ==> s.births.rows[i].certificateNumber != Some(c))
    && (forall i :: 0 <= i < |s.deaths.rows| ==> s.deaths.rows[i].certificateNumber != Some(c))
  }

  lemma AppendKeepsCertificateUnused(s: Store, s1: Store, k: Kind, rec: Registration, c: string)
    requires CertificateUnused(s, c) && rec.certificateNumber.None?
    requires TableOf(s1, k).rows == TableOf(s, k).rows + [rec]
    requires TableOf(s1, OtherKind(k)) == TableOf(s, OtherKind(k))
    ensures CertificateUnused(s1, c)
  {
    match k
    case Birth =>
      assert forall i :: 0 <= i < |s1.births.rows| ==> s1.births.rows[i].certificateNumber != Some(c) by {
        forall i | 0 <= i < |s1.births.rows|
          ensures s1.births.rows[i].certificateNumber != Some(c)
        {
          if i < |s.births.rows| {
            assert s1.births.rows[i] == s.births.rows[i];
          }
        }
      }
    case Death =>
      assert forall i :: 0 <= i < |s1.deaths.rows| ==> s1.deaths.rows[i].certificateNumber != Some(c) by {
        forall i | 0 <= i < |s1.deaths.rows|
          ensures s1.deaths.rows[i].certificateNumber != Some(c)
        {
          if i < |s.deaths.rows| {
            assert s1.deaths.rows[i] == s.deaths.rows[i];
          }
        }
      }
  }

  /** A status update approving with no notes. */
  const Approval: StatusRequest := StatusRequest(Given(APPROVED), Absent)

  /** Approving an existing row with a number no registration carries makes
      that number verify as the row's application, issued at the time of the
      update. */
  lemma ApproveThenVerify(s: Store, k: Kind, reviewer: Session, n: nat, certMs: nat, random: string, now: int)
    requires Consistent(s) && n < |TableOf(s, k).rows| && TableOf(s, k).rows[n].id <= INT4_MAX
    requires Authenticate(s, reviewer).Some? && IsAdminOrRegistrar(Authenticate(s, reviewer).value)
    requires CertificateUnused(s, CertificateNumber(k, certMs, random))
    ensures var (s2, patched) := PatchStatus(s, reviewer, k, Some(TableOf(s, k).rows[n].id), Approval, certMs, random, now);
      && patched.Success? && patched.body.Some?
      && patched.body.value.certificateNumber == Some(CertificateNumber(k, certMs, random))
      && VerifyRoute(s2, CertificateNumber(k, certMs, random)) ==
           Success(Valid(CertificateType(k), TableOf(s, k).rows[n].applicationId, now, ISSUING_OFFICE))
  {
    var c := CertificateNumber(k, certMs, random);
    var rv := Review(Given(APPROVED), Authenticate(s, reviewer).value.id, Absent, Some(c), now);
    var rec := TableOf(s, k).rows[n];
    ApprovalUpdates(s, k, reviewer, n, certMs, random, now);
    var s2 := UpdateStatus(s, k, rec.id, rv).value.0;
    UpdateStatusPreservesValid(s, k, rec.id, rv);
    assert TableOf(s2, k).rows[n] == ApplyReview(rec, rv);
    if k == Death {
      assert s2.births == s.births;
    }
    VerifyCertificateComplete(s2, k, n, c);
  }

  /** Approving an existing row with a number no row holds is accepted by
      the database and returns the reviewed row. */
  lemma ApproveRow(s: Store, k: Kind, n: nat, reviewer: string, c: string, now: int)
    requires Consistent(s) && n < |TableOf(s, k).rows| && CertificateUnused(s, c)
    ensures var rv := Review(Given(APPROVED), reviewer, Absent, Some(c), now);
      var res := UpdateStatus(s, k, TableOf(s, k).rows[n].id, rv);
      && res.Ok?
      && res.value.1 == Some(ApplyReview(TableOf(s, k).rows[n], rv))
  {
    var rows := TableOf(s, k).rows;
    RowById(s, k, n);
    assert forall j :: 0 <= j < |rows| ==> rows[j].certificateNumber != Some(c) by {
      if k == Birth { assert rows == s.births.rows; } else { assert rows == s.deaths.rows; }
    }
    assert !CertificateClash(rows, rows[n].id, Some(c));
  }

  /** The approval of an existing row is the storage update with a new
      certificate number, and the database accepts it. */
  lemma ApprovalUpdates(s: Store, k: Kind, reviewer: Session, n: nat, certMs: nat, random: string, now: int)
    requires Consistent(s) && n < |TableOf(s, k).rows| && TableOf(s, k).rows[n].id <= INT4_MAX
    requires Authenticate(s, reviewer).Some? && IsAdminOrRegistrar(Authenticate(s, reviewer).value)
    requires CertificateUnused(s, CertificateNumber(k, certMs, random))
    ensures var rec := TableOf(s, k).rows[n];
      var rv := Review(Given(APPROVED), Authenticate(s, reviewer).value.id, Absent, Some(CertificateNumber(k, certMs, random)), now);
      && UpdateStatus(s, k, rec.id, rv).Ok?
      && PatchStatus(s, reviewer, k, Some(rec.id), Approval, certMs, random, now) ==
           (UpdateStatus(s, k, rec.id, rv).value.0, Success(Some(ApplyReview(rec, rv))))
  {
    var rec := TableOf(s, k).rows[n];
    var c := CertificateNumber(k, certMs, random);
    var rv := Review(Given(APPROVED), Authenticate(s, reviewer).value.id, Absent, Some(c), now);
    RowById(s, k, n);
    ApproveRow(s, k, n, rv.reviewedBy, c, now);
    var res := UpdateStatus(s, k, rec.id, rv);
    assert IdParameter(Some(rec.id));
    assert IssuedNumber(s, k, rec.id, Approval.status, certMs, random) == Some(c);
    assert PatchStatus(s, reviewer, k, Some(rec.id), Approval, certMs, random, now) == (res.value.0, Success(res.value.1));
  }

  /** A registration submitted by any user and approved by a reviewer
      verifies publicly under the number the approval issued, with the
      application id the submission received. */
  lemma SubmitApproveVerify(s: Store, k: Kind, submitter: Session, reviewer: Session, body: Body,
                            year: nat, t1: int, certMs: nat, random: string, now: int)
    requires Consistent(s) && 1000 <= year <= 9999 && TableOf(s, k).nextId <= INT4_MAX
    requires Authenticate(s, submitter).Some?
    requires Authenticate(s, reviewer).Some? && IsAdminOrRegistrar(Authenticate(s, reviewer).value)
    requires ParseInsert(k, body[SubmittedBy := JString(Authenticate(s, submitter).value.id)]).Ok?
    requires BodyDatesValid(k, body)
    requires CertificateUnused(s, CertificateNumber(k, certMs, random))
    ensures var (s1, created) := CreateRegistrationRoute(s, submitter, k, body, year, t1);
      && created.Success?
      && created.body.applicationId == ApplicationIdFor(k, year, |TableOf(s, k).rows|)
      && var (s2, patched) := PatchStatus(s1, reviewer, k, Some(created.body.id), Approval, certMs, random, now);
      && patched.Success? && patched.body.Some?
      && patched.body.value.certificateNumber == Some(CertificateNumber(k, certMs, random))
      && VerifyRoute(s2, CertificateNumber(k, certMs, random)) ==
           Success(Valid(CertificateType(k), created.body.applicationId, now, ISSUING_OFFICE))
  {
    SubmitAppends(s, k, submitter, body, year, t1);
    var (s1, created) := CreateRegistrationRoute(s, submitter, k, body, year, t1);
    var n := |TableOf(s, k).rows|;
    assert TableOf(s1, k).rows[n] == created.body;
    assert Authenticate(s1, reviewer) == Authenticate(s, reviewer);
    AppendKeepsCertificateUnused(s, s1, k, created.body, CertificateNumber(k, certMs, random));
    ApproveThenVerify(s1, k, reviewer, n, certMs, random, now);
  }

  /** The review queue lists exactly the pending registrations the
      statistics count, and none of them is visible as approved. */
  lemma PendingQueueMatchesStatistics(s: Store, session: Session)
    requires Authenticate(s, session).Some? && IsAdminOrRegistrar(Authenticate(s, session).value)
    ensures PendingApplications(s, session).Success?
    ensures Statistics(s, session).Success?
    ensures |PendingApplications(s, session).body| == Statistics(s, session).body.pendingApplications
  {
  }
}

=== FILE: schema.dfy ===
/** The record shapes of the registry: birth and death registrations,
    uploaded-document metadata and user accounts, with their column defaults,
    the unique constraints the database enforces, and the insert schema that
    turns a submitted JSON body into the columns a submitter may set. */
module Schema {
  import opened Base
  import opened Dates

  /** The two parallel registration tables. */
  datatype Kind = Birth | Death

  const PENDING: string := "pending"
  const APPROVED: string := "approved"

  const ADMIN: string := "admin"
  const REGISTRAR: string := "registrar"
  const HEALTH_WORKER: string := "health_worker"
  /** The default of the `role` column of `users`. */
  const PUBLIC: string := "public"

  /** The submitter-provided columns of a birth registration; `None` is a SQL
      NULL in a nullable column. */
  datatype BirthDetails = BirthDetails(
    childName: string,
    childSex: string,
    dateOfBirth: string,
    timeOfBirth: Option<string>,
    placeOfBirth: string,
    fatherName: string,
    fatherNationalId: string,
    fatherDateOfBirth: Option<string>,
    fatherOccupation: Option<string>,
    motherName: string,
    motherNationalId: string,
    motherDateOfBirth: Option<string>,
    motherOccupation: Option<string>)

  /** The submitter-provided columns of a death registration. */
  datatype DeathDetails = DeathDetails(
    deceasedName: string,
    dateOfDeath: string,
    timeOfDeath: Option<string>,
    placeOfDeath: string,
    causeOfDeath: string,
    nextOfKinName: string,
    nextOfKinRelationship: string,
    nextOfKinContact: string,
    nextOfKinNationalId: Option<string>)

  datatype Details = BirthInfo(birth: BirthDetails) | DeathInfo(death: DeathDetails) {
    function OfKind(): Kind {
      if BirthInfo? then Birth else Death
    }
  }

  /** A row of `birth_registrations` or `death_registrations`. `id` is the
      serial primary key, `applicationId` the human-readable identifier,
      times are milliseconds since the epoch. */
  datatype Registration = Registration(
    id: nat,
    applicationId: string,
    details: Details,
    submittedBy: string,
    status: string,
    reviewedBy: Option<string>,
    reviewNotes: Option<string>,
    certificateNumber: Option<string>,
    createdAt: int,
    updatedAt: int)

  /** The ordering key of every registration listing. */
  function CreationTime(r: Registration): int {
    r.createdAt
  }

  /** A row of `documents`: metadata of an uploaded file, linked to an
      application by (applicationId, applicationType). */
  datatype Document = Document(
    id: nat,
    applicationId: string,
    applicationType: string,
    documentType: string,
    fileName: string,
    filePath: string,
    fileSize: Option<int>,
    mimeType: Option<string>,
    uploadedBy: string,
    createdAt: int)

  /** The insert shape of `documents`: every column but `id` and
      `createdAt`. The three request-supplied columns are `None` when the
      request leaves them out, although the table declares them non-null. */
  datatype DocumentInsert = DocumentInsert(
    applicationId: Option<string>,
    applicationType: Option<string>,
    documentType: Option<string>,
    fileName: string,
    filePath: string,
    fileSize: Option<int>,
    mimeType: Option<string>,
    uploadedBy: string)

  /** An opaque password digest. Distinct passwords have distinct digests and
      a password verifies against its own digest only. */
  datatype PasswordHash = Hash(secret: string)

  function HashPassword(password: string): PasswordHash {
    Hash(password)
  }

  predicate VerifyPassword(password: string, hash: PasswordHash) {
    hash == Hash(password)
  }

  /** A user account, with the columns the storage layer reads and writes:
      the password digest, the verification flag and the two single-use
      tokens with their expiry times. */
  datatype User = User(
    id: string,
    email: string,
    password: PasswordHash,
    firstName: string,
    lastName: string,
    role: string,
    isVerified: bool,
    verificationToken: Option<string>,
    verificationTokenExpiry: Option<int>,
    resetToken: Option<string>,
    resetTokenExpiry: Option<int>,
    createdAt: int,
    updatedAt: int)

  // ---------------------------------------------------------------------
  // Unique constraints, per table

  predicate UniqueApplicationIds(rows: seq<Registration>) {
    forall i, j :: 0 <= i < j < |rows| ==> rows[i].applicationId != rows[j].applicationId
  }

  /** `certificate_number` is nullable but unique: two rows never carry the
      same number. */
  predicate UniqueCertificates(rows: seq<Registration>) {
    forall i, j :: 0 <= i < j < |rows| && rows[i].certificateNumber.Some? ==>
      rows[i].certificateNumber != rows[j].certificateNumber
  }

  predicate UniqueUserIds(users: seq<User>) {
    forall i, j :: 0 <= i < j < |users| ==> users[i].id != users[j].id
  }

  predicate UniqueEmails(users: seq<User>) {
    forall i, j :: 0 <= i < j < |users| ==> users[i].email != users[j].email
  }

  // ---------------------------------------------------------------------
  // Insert schemas

  /** A key of a JSON request body. The named constructors are the columns of
      the registration tables under their JSON names (`ChildName` is
      "childName"); `Other` is any key that names no column. */
  datatype Field =
    | ChildName | ChildSex | DateOfBirth | TimeOfBirth | PlaceOfBirth
    | FatherName | FatherNationalId | FatherDateOfBirth | FatherOccupation
    | MotherName | MotherNationalId | MotherDateOfBirth | MotherOccupation
    | DeceasedName | DateOfDeath | TimeOfDeath | PlaceOfDeath | CauseOfDeath
    | NextOfKinName | NextOfKinRelationship | NextOfKinContact | NextOfKinNationalId
    | SubmittedBy
    | Id | ApplicationId | Status | ReviewedBy | ReviewNotes | CertificateNumber
    | CreatedAt | UpdatedAt
    | Other(name: string)

  /** A JSON value of a request body. */
  datatype Json = JString(str: string) | JNumber(num: int) | JBool(flag: bool) | JNull

  type Body = map<Field, Json>

  /** The columns each insert schema keeps. */
  function Columns(k: Kind): set<Field> {
    match k
    case Birth => {
      ChildName, ChildSex, DateOfBirth, TimeOfBirth, PlaceOfBirth,
      FatherName, FatherNationalId, FatherDateOfBirth, FatherOccupation,
      MotherName, MotherNationalId, MotherDateOfBirth, MotherOccupation, SubmittedBy}
    case Death => {
      DeceasedName, DateOfDeath, TimeOfDeath, PlaceOfDeath, CauseOfDeath,
      NextOfKinName, NextOfKinRelationship, NextOfKinContact, NextOfKinNationalId, SubmittedBy}
  }

  /** The nullable columns; every other schema column is `notNull()`. */
  predicate Nullable(f: Field) {
    f.TimeOfBirth? || f.FatherDateOfBirth? || f.FatherOccupation? ||
    f.MotherDateOfBirth? || f.MotherOccupation? ||
    f.TimeOfDeath? || f.NextOfKinNationalId?
  }

  /** The columns both insert schemas omit: the system sets them. */
  const OmittedColumns: set<Field> := {
    Id, ApplicationId, Status, ReviewedBy, ReviewNotes,
    CertificateNumber, CreatedAt, UpdatedAt}

  /** What the insert schema yields: the details and the submitter. */
  datatype Insert = Insert(details: Details, submittedBy: string)

  /** A non-null column needs a string; a nullable one also admits null or
      absence. */
  predicate Accepts(f: Field, body: Body) {
    if f in body then body[f].JString? || (Nullable(f) && body[f].JNull?)
    else Nullable(f)
  }

  function Text(body: Body, f: Field): string {
    if f in body && body[f].JString? then body[f].str else ""
  }

  function OptText(body: Body, f: Field): Option<string> {
    if f in body && body[f].JString? then Some(body[f].str) else None
  }

  function Build(k: Kind, m: Body): (ins: Insert)
    ensures ins.details.OfKind() == k
    ensures ins.submittedBy == Text(m, SubmittedBy)
  {
    match k
    case Birth =>
      Insert(BirthInfo(BirthDetails(
               Text(m, ChildName), Text(m, ChildSex), Text(m, DateOfBirth),
               OptText(m, TimeOfBirth), Text(m, PlaceOfBirth),
               Text(m, FatherName), Text(m, FatherNationalId),
               OptText(m, FatherDateOfBirth), OptText(m, FatherOccupation),
               Text(m, MotherName), Text(m, MotherNationalId),
               OptText(m, MotherDateOfBirth), OptText(m, MotherOccupation))),
             Text(m, SubmittedBy))
    case Death =>
      Insert(DeathInfo(DeathDetails(
               Text(m, DeceasedName), Text(m, DateOfDeath), OptText(m, TimeOfDeath),
               Text(m, PlaceOfDeath), Text(m, CauseOfDeath),
               Text(m, NextOfKinName), Text(m, NextOfKinRelationship),
               Text(m, NextOfKinContact), OptText(m, NextOfKinNationalId))),
             Text(m, SubmittedBy))
  }

  /** The value a birth record holds for column `f`. */
  function BirthValue(b: BirthDetails, f: Field): Option<string> {
    match f
    case ChildName => Some(b.childName)
    case ChildSex => Some(b.childSex)
    case DateOfBirth => Some(b.dateOfBirth)
    case TimeOfBirth => b.timeOfBirth
    case PlaceOfBirth => Some(b.placeOfBirth)
    case FatherName => Some(b.fatherName)
    case FatherNationalId => Some(b.fatherNationalId)
    case FatherDateOfBirth => b.fatherDateOfBirth
    case FatherOccupation => b.fatherOccupation
    case MotherName => Some(b.motherName)
    case MotherNationalId => Some(b.motherNationalId)
    case MotherDateOfBirth => b.motherDateOfBirth
    case MotherOccupation => b.motherOccupation
    case _ => None
  }

  /** The value a death record holds for column `f`. */
  function DeathValue(d: DeathDetails, f: Field): Option<string> {
    match f
    case DeceasedName => Some(d.deceasedName)
    case DateOfDeath => Some(d.dateOfDeath)
    case TimeOfDeath => d.timeOfDeath
    case PlaceOfDeath => Some(d.placeOfDeath)
    case CauseOfDeath => Some(d.causeOfDeath)
    case NextOfKinName => Some(d.nextOfKinName)
    case NextOfKinRelationship => Some(d.nextOfKinRelationship)
    case NextOfKinContact => Some(d.nextOfKinContact)
    case NextOfKinNationalId => d.nextOfKinNationalId
    case _ => None
  }

  /** The value an insert record holds for column `f`. */
  function ColumnValue(ins: Insert, f: Field): Option<string> {
    if f == SubmittedBy then Some(ins.submittedBy)
    else match ins.details
      case BirthInfo(b) => BirthValue(b, f)
      case DeathInfo(d) => DeathValue(d, f)
  }

  /** The insert schema's `parse`: either every failing column is reported,
      or the record is built from the schema's columns alone (keys outside
      the schema are stripped, see `StripUnknownKeys`). */
  function ParseInsert(k: Kind, body: Body): (r: Result<Insert, set<Field>>)
    ensures r.Ok? <==> forall f :: f in Columns(k) ==> Accepts(f, body)
    ensures r.Err? ==> r.error != {} && r.error == set f | f in Columns(k) && !Accepts(f, body)
    ensures r.Ok? ==> r.value.details.OfKind() == k && r.value.submittedBy == Text(body, SubmittedBy)
  {
    var bad := set f | f in Columns(k) && !Accepts(f, body);
    if bad == {} then
      assert forall f :: f in Columns(k) ==> (f in bad <==> !Accepts(f, body));
      Ok(Build(k, body))
    else Err(bad)
  }

  /** Two bodies that agree on every column of `k` give the same record. */
  lemma BuildReadsColumns(k: Kind, a: Body, b: Body)
    requires forall f :: f in Columns(k) ==> (f in a <==> f in b) && (f in a ==> a[f] == b[f])
    ensures Build(k, a) == Build(k, b)
  {
  }

  /** Two bodies that agree on every column of `k` fail on the same columns. */
  lemma AcceptsReadsColumns(k: Kind, a: Body, b: Body)
    requires forall f :: f in Columns(k) ==> (f in a <==> f in b) && (f in a ==> a[f] == b[f])
    ensures (set f | f in Columns(k) && !Accepts(f, a)) == (set f | f in Columns(k) && !Accepts(f, b))
  {
    assert forall f :: f in Columns(k) ==> Accepts(f, a) == Accepts(f, b);
  }

  /** Keys outside the schema never influence the parse: zod strips them. */
  lemma StripUnknownKeys(k: Kind, body: Body, key: Field, v: Json)
    requires key !in Columns(k)
    ensures ParseInsert(k, body[key := v]) == ParseInsert(k, body)
  {
    var body' := body[key := v];
    assert forall f :: f in Columns(k) ==> (f in body' <==> f in body) && (f in body' ==> body'[f] == body[f]);
    BuildReadsColumns(k, body', body);
    AcceptsReadsColumns(k, body', body);
  }

  /** None of the system-set columns is a column of either insert schema. */
  lemma OmittedNotInsertable(k: Kind)
    ensures forall o :: o in OmittedColumns ==> o !in Columns(k)
  {
  }

  /** A submitted body cannot set the id, application id, status, reviewer,
      notes, certificate number or timestamps: whatever value it gives one of
      them, the parse is the same as without it. */
  lemma OmittedColumnsIgnored(k: Kind, body: Body, o: Field, v: Json)
    requires o in OmittedColumns
    ensures ParseInsert(k, body[o := v]) == ParseInsert(k, body)
  {
    OmittedNotInsertable(k);
    StripUnknownKeys(k, body, o, v);
  }

  /** An accepted non-null column holds exactly the body's string. */
  lemma RequiredText(body: Body, f: Field)
    requires Accepts(f, body)
    ensures !Nullable(f) ==> OptText(body, f) == Some(Text(body, f))
  {
  }

  /** A built record holds the body's string in each non-null column (empty
      when absent) and the body's optional string in each nullable one; the
      columns are taken a group at a time. */
  lemma ChildColumnsFromBody(body: Body, f: Field)
    requires f in {ChildName, ChildSex, DateOfBirth, TimeOfBirth, PlaceOfBirth, SubmittedBy}
    ensures ColumnValue(Build(Birth, body), f) == if Nullable(f) then OptText(body, f) else Some(Text(body, f))
  {
  }

  lemma FatherColumnsFromBody(body: Body, f: Field)
    requires f in {FatherName, FatherNationalId, FatherDateOfBirth, FatherOccupation}
    ensures ColumnValue(Build(Birth, body), f) == if Nullable(f) then OptText(body, f) else Some(Text(body, f))
  {
  }

  lemma MotherColumnsFromBody(body: Body, f: Field)
    requires f in {MotherName, MotherNationalId, MotherDateOfBirth, MotherOccupation}
    ensures ColumnValue(Build(Birth, body), f) == if Nullable(f) then OptText(body, f) else Some(Text(body, f))
  {
  }

  lemma BirthColumnFromBody(body: Body, f: Field)
    requires f in Columns(Birth)
    ensures ColumnValue(Build(Birth, body), f) == if Nullable(f) then OptText(body, f) else Some(Text(body, f))
  {
    if f in {ChildName, ChildSex, DateOfBirth, TimeOfBirth, PlaceOfBirth, SubmittedBy} {
      ChildColumnsFromBody(body, f);
    } else if f in {FatherName, FatherNationalId, FatherDateOfBirth, FatherOccupation} {
      FatherColumnsFromBody(body, f);
    } else {
      MotherColumnsFromBody(body, f);
    }
  }

  lemma DeceasedColumnsFromBody(body: Body, f: Field)
    requires f in {DeceasedName, DateOfDeath, TimeOfDeath, PlaceOfDeath, CauseOfDeath, SubmittedBy}
    ensures ColumnValue(Build(Death, body), f) == if Nullable(f) then OptText(body, f) else Some(Text(body, f))
  {
  }

  lemma NextOfKinColumnsFromBody(body: Body, f: Field)
    requires f in {NextOfKinName, NextOfKinRelationship, NextOfKinContact, NextOfKinNationalId}
    ensures ColumnValue(Build(Death, body), f) == if Nullable(f) then OptText(body, f) else Some(Text(body, f))
  {
  }

  lemma DeathColumnFromBody(body: Body, f: Field)
    requires f in Columns(Death)
    ensures ColumnValue(Build(Death, body), f) == if Nullable(f) then OptText(body, f) else Some(Text(body, f))
  {
    if f in {DeceasedName, DateOfDeath, TimeOfDeath, PlaceOfDeath, CauseOfDeath, SubmittedBy} {
      DeceasedColumnsFromBody(body, f);
    } else {
      NextOfKinColumnsFromBody(body, f);
    }
  }

  lemma BirthValuesComeFromBody(body: Body)
    requires forall f :: f in Columns(Birth) ==> Accepts(f, body)
    ensures forall f :: f in Columns(Birth) ==> ColumnValue(Build(Birth, body), f) == OptText(body, f)
  {
    forall f | f in Columns(Birth)
      ensures ColumnValue(Build(Birth, body), f) == OptText(body, f)
    {
      BirthColumnFromBody(body, f);
      RequiredText(body, f);
    }
  }

  lemma DeathValuesComeFromBody(body: Body)
    requires forall f :: f in Columns(Death) ==> Accepts(f, body)
    ensures forall f :: f in Columns(Death) ==> ColumnValue(Build(Death, body), f) == OptText(body, f)
  {
    forall f | f in Columns(Death)
      ensures ColumnValue(Build(Death, body), f) == OptText(body, f)
    {
      DeathColumnFromBody(body, f);
      RequiredText(body, f);
    }
  }

  /** The columns of PostgreSQL type `date` in each table. */
  function DateColumns(k: Kind): (r: set<Field>)
    ensures r <= Columns(k)
  {
    match k
    case Birth => {DateOfBirth, FatherDateOfBirth, MotherDateOfBirth}
    case Death => {DateOfDeath}
  }

  /** Every `date` column of the details holds text the database reads as a
      date, or NULL where the column is nullable. */
  predicate DatesValid(d: Details) {
    match d
    case BirthInfo(b) =>
      IsDate(b.dateOfBirth) &&
      (b.fatherDateOfBirth.None? || IsDate(b.fatherDateOfBirth.value)) &&
      (b.motherDateOfBirth.None? || IsDate(b.motherDateOfBirth.value))
    case DeathInfo(x) => IsDate(x.dateOfDeath)
  }

  /** Every `date` column to which the body gives a string gives a date. */
  predicate BodyDatesValid(k: Kind, body: Body) {
    forall f :: f in DateColumns(k) && OptText(body, f).Some? ==> IsDate(OptText(body, f).value)
  }

  /** The submitter column is no date, so forcing it leaves the body's dates
      as they were. */
  lemma SubmitterKeepsBodyDates(k: Kind, body: Body, v: Json)
    ensures BodyDatesValid(k, body[SubmittedBy := v]) <==> BodyDatesValid(k, body)
  {
    forall f | f in DateColumns(k)
      ensures OptText(body[SubmittedBy := v], f) == OptText(body, f)
    {
      assert f != SubmittedBy;
    }
  }

  /** The parsed date columns of a birth body are the body's strings. */
  lemma BirthDatesFromBody(body: Body)
    requires ParseInsert(Birth, body).Ok?
    ensures var b := ParseInsert(Birth, body).value.details.birth;
      OptText(body, DateOfBirth) == Some(b.dateOfBirth) &&
      OptText(body, FatherDateOfBirth) == b.fatherDateOfBirth &&
      OptText(body, MotherDateOfBirth) == b.motherDateOfBirth
  {
    assert Accepts(DateOfBirth, body);
    ChildColumnsFromBody(body, DateOfBirth);
    FatherColumnsFromBody(body, FatherDateOfBirth);
    MotherColumnsFromBody(body, MotherDateOfBirth);
  }

  /** The parsed date column of a death body is the body's string. */
  lemma DeathDatesFromBody(body: Body)
    requires ParseInsert(Death, body).Ok?
    ensures OptText(body, DateOfDeath) == Some(ParseInsert(Death, body).value.details.death.dateOfDeath)
  {
    assert Accepts(DateOfDeath, body);
    DeceasedColumnsFromBody(body, DateOfDeath);
  }

  /** A parsed record's dates are acceptable exactly when the body's are; a
      blank string from an untouched date input is therefore refused. */
  lemma DatesValidFromBody(k: Kind, body: Body)
    requires ParseInsert(k, body).Ok?
    ensures DatesValid(ParseInsert(k, body).value.details) <==> BodyDatesValid(k, body)
  {
    if k == Birth {
      BirthDatesFromBody(body);
      assert DateOfBirth in DateColumns(k) && FatherDateOfBirth in DateColumns(k) && MotherDateOfBirth in DateColumns(k);
    } else {
      DeathDatesFromBody(body);
      assert DateOfDeath in DateColumns(k);
    }
  }

  /** A successful parse holds, in every schema column, the string the body
      gave it (`None` for an absent or null nullable column); every non-null
      column holds a value. */
  lemma ParsedValuesComeFromBody(k: Kind, body: Body)
    requires ParseInsert(k, body).Ok?
    ensures forall f :: f in Columns(k) ==>
      ColumnValue(ParseInsert(k, body).value, f) == OptText(body, f)
    ensures forall f :: f in Columns(k) && !Nullable(f) ==>
      ColumnValue(ParseInsert(k, body).value, f).Some?
  {
    if k == Birth {
      BirthValuesComeFromBody(body);
    } else {
      DeathValuesComeFromBody(body);
    }
  }
}

=== FILE: storage.dfy ===
/** The registry's storage layer: the four tables as sequences of rows in
    insertion order, and the operations of the storage class over them. The
    database's unique, not-null and date-type checks appear as a `DbError` result;
    the current time, the year, new user ids and tokens are parameters. */
module Storage {
  import opened Base
  import opened Text
  import opened Query
  import opened Schema

  /** A registration table: its rows in insertion order and the next value of
      its serial `id` sequence. */
  datatype Table = Table(rows: seq<Registration>, nextId: nat)

  datatype Store = Store(
    births: Table,
    deaths: Table,
    documents: seq<Document>,
    nextDocumentId: nat,
    users: seq<User>)

  const EmptyStore: Store := Store(Table([], 1), Table([], 1), [], 1, [])

  /** A statement the database refuses: a unique or not-null constraint, or
      text in a `date` column that names no date. */
  datatype DbError = UniqueViolation(column: string) | NotNullViolation(column: string) | InvalidDate

  /** Lifetimes of the two single-use tokens, in milliseconds. */
  const VERIFICATION_TOKEN_LIFETIME: int := 24 * 60 * 60 * 1000
  const RESET_TOKEN_LIFETIME: int := 60 * 60 * 1000

  const ISSUING_OFFICE: string := "Accra Registry"

  /** The range of a Postgres `integer`, the type of the `serial` id
      columns; the database refuses an id parameter outside it. */
  const INT4_MIN: int := -0x8000_0000
  const INT4_MAX: int := 0x7FFF_FFFF

  function OtherKind(k: Kind): Kind {
    match k
    case Birth => Death
    case Death => Birth
  }

  function TableOf(s: Store, k: Kind): Table {
    match k
    case Birth => s.births
    case Death => s.deaths
  }

  function WithTable(s: Store, k: Kind, t: Table): (r: Store)
    ensures TableOf(r, k) == t && TableOf(r, OtherKind(k)) == TableOf(s, OtherKind(k))
    ensures r.users == s.users && r.documents == s.documents && r.nextDocumentId == s.nextDocumentId
  {
    match k
    case Birth => s.(births := t)
    case Death => s.(deaths := t)
  }

  // ---------------------------------------------------------------------
  // Application ids

  function ApplicationPrefix(k: Kind): string {
    match k
    case Birth => "BR"
    case Death => "DR"
  }

  /** The id of the application created when the table holds `count` rows:
      the prefix, the year, then `count + 1` padded to three digits. */
  function ApplicationIdFor(k: Kind, year: nat, count: nat): (r: string)
    ensures ApplicationPrefix(k) + Decimal(year) <= r
    ensures |r| >= 5 + |Decimal(year)|
  {
    var y := Decimal(year);
    var d := PadStart(Decimal(count + 1), 3, '0');
    PaddedDecimalRoundTrip(count + 1, 3);
    var r := ApplicationPrefix(k) + y + d;
    assert r[..|ApplicationPrefix(k) + y|] == ApplicationPrefix(k) + y;
    r
  }

  /** The year of an application id whose year has four digits. */
  function ApplicationYear(k: Kind, appId: string): Option<nat> {
    if 6 <= |appId| && appId[..2] == ApplicationPrefix(k) && AllDigits(appId[2..6]) && AllDigits(appId[6..])
    then Some(ParseDecimal(appId[2..6]))
    else None
  }

  /** The sequence number of an application id whose year has four digits. */
  function ApplicationSerial(k: Kind, appId: string): Option<nat> {
    if 6 <= |appId| && appId[..2] == ApplicationPrefix(k) && AllDigits(appId[2..6]) && AllDigits(appId[6..])
    then Some(ParseDecimal(appId[6..]))
    else None
  }

  /** The three parts of an id are at fixed positions when the prefix has
      two characters and the year four. */
  lemma IdParts(p: string, y: string, d: string)
    requires |p| == 2 && |y| == 4
    ensures (p + y + d)[..2] == p && (p + y + d)[2..6] == y && (p + y + d)[6..] == d
  {
  }

  /** For a four-digit year, the id reads back as its year and `count + 1`,
      and the sequence part has at least three digits. */
  lemma ApplicationIdRoundTrip(k: Kind, year: nat, count: nat)
    requires 1000 <= year <= 9999
    ensures ApplicationYear(k, ApplicationIdFor(k, year, count)) == Some(year)
    ensures ApplicationSerial(k, ApplicationIdFor(k, year, count)) == Some(count + 1)
    ensures |ApplicationIdFor(k, year, count)| >= 9
  {
    var p, y, d := ApplicationPrefix(k), Decimal(year), PadStart(Decimal(count + 1), 3, '0');
    FourDigitDecimal(year);
    DecimalRoundTrip(year);
    PaddedDecimalRoundTrip(count + 1, 3);
    IdParts(p, y, d);
  }

  /** Different (year, count) pairs with four-digit years give different ids. */
  lemma ApplicationIdInjective(k: Kind, y1: nat, c1: nat, y2: nat, c2: nat)
    requires 1000 <= y1 <= 9999 && 1000 <= y2 <= 9999
    requires ApplicationIdFor(k, y1, c1) == ApplicationIdFor(k, y2, c2)
    ensures y1 == y2 && c1 == c2
  {
    ApplicationIdRoundTrip(k, y1, c1);
    ApplicationIdRoundTrip(k, y2, c2);
  }

  // ---------------------------------------------------------------------
  // Registration rows

  function HasId(id: int): Registration -> bool {
    (r: Registration) => r.id == id
  }

  function HasApplicationId(appId: string): Registration -> bool {
    (r: Registration) => r.applicationId == appId
  }

  function HasStatus(status: string): Registration -> bool {
    (r: Registration) => r.status == status
  }

  function HasCertificate(cert: string): Registration -> bool {
    (r: Registration) => r.certificateNumber == Some(cert)
  }

  /** Inserts a registration with a fresh application id and the column
      defaults: status pending, no reviewer, notes or certificate. Text in a
      `date` column that names no date is refused before any row is written,
      and the unique index on the application id refuses a clash. */
  function CreateRegistration(s: Store, k: Kind, ins: Insert, year: nat, now: int): (r: Result<(Store, Registration), DbError>)
    requires ins.details.OfKind() == k
    ensures r.Err? <==>
      || !DatesValid(ins.details)
      || exists i :: 0 <= i < |TableOf(s, k).rows| && TableOf(s, k).rows[i].applicationId == ApplicationIdFor(k, year, |TableOf(s, k).rows|)
    ensures !DatesValid(ins.details) ==> r == Err(InvalidDate)
    ensures r.Ok? ==>
      var (s', rec) := r.value;
      && rec.applicationId == ApplicationIdFor(k, year, |TableOf(s, k).rows|)
      && rec.status == PENDING
      && rec.reviewedBy.None? && rec.reviewNotes.None? && rec.certificateNumber.None?
      && rec.details == ins.details && rec.submittedBy == ins.submittedBy
      && rec.createdAt == now && rec.updatedAt == now
      && rec.id == TableOf(s, k).nextId
      && TableOf(s', k).rows == TableOf(s, k).rows + [rec]
      && TableOf(s', k).nextId == TableOf(s, k).nextId + 1
      && TableOf(s', OtherKind(k)) == TableOf(s, OtherKind(k))
      && s'.users == s.users && s'.documents == s.documents && s'.nextDocumentId == s.nextDocumentId
  {
    var t := TableOf(s, k);
    var appId := ApplicationIdFor(k, year, |t.rows|);
    if !DatesValid(ins.details) then
      Err(InvalidDate)
    else if First(t.rows, HasApplicationId(appId)).Some? then
      Err(UniqueViolation("application_id"))
    else
      var rec := Registration(t.nextId, appId, ins.details, ins.submittedBy, PENDING, None, None, None, now, now);
      Ok((WithTable(s, k, Table(t.rows + [rec], t.nextId + 1)), rec))
  }

  function GetRegistration(s: Store, k: Kind, id: int): (r: Option<Registration>)
    ensures r.Some? ==> r.value in TableOf(s, k).rows && r.value.id == id
    ensures r.None? <==> forall i :: 0 <= i < |TableOf(s, k).rows| ==> TableOf(s, k).rows[i].id != id
  {
    First(TableOf(s, k).rows, HasId(id))
  }

  function GetRegistrationByApplicationId(s: Store, k: Kind, appId: string): (r: Option<Registration>)
    ensures r.Some? ==> r.value in TableOf(s, k).rows && r.value.applicationId == appId
    ensures r.None? <==> forall i :: 0 <= i < |TableOf(s, k).rows| ==> TableOf(s, k).rows[i].applicationId != appId
  {
    First(TableOf(s, k).rows, HasApplicationId(appId))
  }

  /** Every row of the table, newest first. */
  function GetAll(s: Store, k: Kind): (r: seq<Registration>)
    ensures multiset(r) == multiset(TableOf(s, k).rows)
    ensures SortedDesc(r, CreationTime)
  {
    SortDesc(TableOf(s, k).rows, CreationTime)
  }

  /** Exactly the rows with the given status, each as often as in the
      table, newest first. */
  function GetByStatus(s: Store, k: Kind, status: string): (r: seq<Registration>)
    ensures forall x :: x in r <==> x in TableOf(s, k).rows && x.status == status
    ensures forall x :: multiset(r)[x] == if x.status == status then multiset(TableOf(s, k).rows)[x] else 0
    ensures |r| == |Filter(TableOf(s, k).rows, HasStatus(status))|
    ensures SortedDesc(r, CreationTime)
  {
    var rows := Filter(TableOf(s, k).rows, HasStatus(status));
    SortDescContents(rows, CreationTime);
    SortDesc(rows, CreationTime)
  }

  /** The columns a status update sets. The status and the notes come from
      the request body, so each may be missing, which the ORM leaves out of
      the statement, or `null`; the certificate number is a string or
      missing; `at` is the `new Date()` of the update. */
  datatype Review = Review(
    status: Input<string>,
    reviewedBy: string,
    reviewNotes: Input<string>,
    certificateNumber: Option<string>,
    at: int)

  /** A nullable column after `.set()`: a missing value keeps it, `null`
      clears it, a value replaces it. */
  function Assigned<T>(input: Input<T>, current: Option<T>): Option<T> {
    match input
    case Absent => current
    case Null => None
    case Given(v) => Some(v)
  }

  /** One row after a status update: the reviewed columns and `updatedAt`
      change, every other column keeps its value. A `null` status never
      reaches a row (the column is not null, see `UpdateStatus`), so only a
      given status replaces the old one. */
  function ApplyReview(rec: Registration, rv: Review): (r: Registration)
    ensures r.id == rec.id && r.applicationId == rec.applicationId
    ensures r.details == rec.details && r.submittedBy == rec.submittedBy
    ensures r.createdAt == rec.createdAt
    ensures rv.status.Given? ==> r.status == rv.status.value
    ensures rv.status.Absent? ==> r.status == rec.status
    ensures r.reviewedBy == Some(rv.reviewedBy)
    ensures rv.reviewNotes.Absent? ==> r.reviewNotes == rec.reviewNotes
    ensures rv.reviewNotes.Null? ==> r.reviewNotes.None?
    ensures rv.reviewNotes.Given? ==> r.reviewNotes == Some(rv.reviewNotes.value)
    ensures r.certificateNumber == if rv.certificateNumber.Some? then rv.certificateNumber else rec.certificateNumber
    ensures r.updatedAt == rv.at
  {
    rec.(status := if rv.status.Given? then rv.status.value else rec.status,
         reviewedBy := Some(rv.reviewedBy),
         reviewNotes := Assigned(rv.reviewNotes, rec.reviewNotes),
         certificateNumber := if rv.certificateNumber.Some? then rv.certificateNumber else rec.certificateNumber,
         updatedAt := rv.at)
  }

  function ReviewRows(rows: seq<Registration>, id: int, rv: Review): (r: seq<Registration>)
    ensures |r| == |rows|
    ensures forall i :: 0 <= i < |rows| ==> r[i] == if rows[i].id == id then ApplyReview(rows[i], rv) else rows[i]
  {
    seq(|rows|, i requires 0 <= i < |rows| => if rows[i].id == id then ApplyReview(rows[i], rv) else rows[i])
  }

  /** Would a `null` status be written to a row? The status column is not
      null; an update that matches no row writes nothing. */
  predicate ClearsStatus(rows: seq<Registration>, id: int, status: Input<string>) {
    status.Null? && exists i :: 0 <= i < |rows| && rows[i].id == id
  }

  /** Would giving `cert` to the rows with `id` clash with another row? */
  predicate CertificateClash(rows: seq<Registration>, id: int, cert: Option<string>) {
    && cert.Some?
    && (exists i :: 0 <= i < |rows| && rows[i].id == id)
    && (exists j :: 0 <= j < |rows| && rows[j].id != id && rows[j].certificateNumber == cert)
  }

  /** `update ... set ... where id = $id returning`: the row with that id, if
      any, is reviewed and returned; the not-null status column refuses a
      `null` status and the unique index on the certificate number refuses a
      clash. */
  function UpdateStatus(s: Store, k: Kind, id: int, rv: Review): (r: Result<(Store, Option<Registration>), DbError>)
    ensures r.Err? <==> ClearsStatus(TableOf(s, k).rows, id, rv.status) || CertificateClash(TableOf(s, k).rows, id, rv.certificateNumber)
    ensures r.Ok? ==>
      var (s', updated) := r.value;
      && TableOf(s', k).rows == ReviewRows(TableOf(s, k).rows, id, rv)
      && TableOf(s', k).nextId == TableOf(s, k).nextId
      && TableOf(s', OtherKind(k)) == TableOf(s, OtherKind(k))
      && s'.users == s.users && s'.documents == s.documents && s'.nextDocumentId == s.nextDocumentId
      && (updated.None? <==> GetRegistration(s, k, id).None?)
      && (updated.Some? ==> updated.value == ApplyReview(GetRegistration(s, k, id).value, rv))
  {
    var t := TableOf(s, k);
    var found := First(t.rows, HasId(id));
    if rv.status.Null? && found.Some? then
      Err(NotNullViolation("status"))
    else if CertificateClash(t.rows, id, rv.certificateNumber) then
      Err(UniqueViolation("certificate_number"))
    else
      var rows' := ReviewRows(t.rows, id, rv);
      Ok((WithTable(s, k, Table(rows', t.nextId)),
          if found.Some? then Some(ApplyReview(found.value, rv)) else None))
  }

  // ---------------------------------------------------------------------
  // Statistics and certificate verification

  /** The number of rows with the given status (`select count(*) where`). */
  function CountStatus(rows: seq<Registration>, status: string): nat {
    |Filter(rows, HasStatus(status))|
  }

  datatype Stats = Stats(
    pendingApplications: nat,
    thisMonthRegistrations: nat,
    totalBirths: nat,
    totalDeaths: nat)

  /** The dashboard counts. "This month" counts every approved registration,
      with no date filter. */
  function RegistrationStats(s: Store): (r: Stats)
    ensures r.pendingApplications == |GetByStatus(s, Birth, PENDING)| + |GetByStatus(s, Death, PENDING)|
    ensures r.thisMonthRegistrations == |GetByStatus(s, Birth, APPROVED)| + |GetByStatus(s, Death, APPROVED)|
    ensures r.totalBirths == |GetAll(s, Birth)| && r.totalDeaths == |GetAll(s, Death)|
    ensures r.pendingApplications + r.thisMonthRegistrations <= r.totalBirths + r.totalDeaths
  {
    FilterDisjoint(s.births.rows, HasStatus(PENDING), HasStatus(APPROVED));
    FilterDisjoint(s.deaths.rows, HasStatus(PENDING), HasStatus(APPROVED));
    SortDescContents(s.births.rows, CreationTime);
    SortDescContents(s.deaths.rows, CreationTime);
    Stats(CountStatus(s.births.rows, PENDING) + CountStatus(s.deaths.rows, PENDING),
          CountStatus(s.births.rows, APPROVED) + CountStatus(s.deaths.rows, APPROVED),
          |s.births.rows|, |s.deaths.rows|)
  }

  function CertificateType(k: Kind): string {
    match k
    case Birth => "Birth Certificate"
    case Death => "Death Certificate"
  }

  /** The public answer of a certificate lookup; `Invalid` is `{valid: false}`
      with no other field. */
  datatype Verification =
    | Invalid
    | Valid(certificateType: string, applicationId: string, issuedDate: int, issuingOffice: string)

  /** The lookup of one table: its row with that certificate number, if that
      row is approved. */
  function LookupCertificate(s: Store, k: Kind, cert: string): Option<Registration> {
    var row := First(TableOf(s, k).rows, HasCertificate(cert));
    if row.Some? && row.value.status == APPROVED then row else None
  }

  function Issued(k: Kind, rec: Registration): Verification {
    Valid(CertificateType(k), rec.applicationId, rec.updatedAt, ISSUING_OFFICE)
  }

  /** Looks the number up among births, then among deaths; only an approved
      row makes it valid. */
  function VerifyCertificate(s: Store, cert: string): (r: Verification)
    ensures r.Valid? ==> r.issuingOffice == ISSUING_OFFICE
    ensures r.Valid? ==>
      exists k: Kind, x :: x in TableOf(s, k).rows && x.certificateNumber == Some(cert) && x.status == APPROVED && r == Issued(k, x)
  {
    var birth := LookupCertificate(s, Birth, cert);
    if birth.Some? then Issued(Birth, birth.value)
    else
      var death := LookupCertificate(s, Death, cert);
      if death.Some? then Issued(Death, death.value) else Invalid
  }

  // ---------------------------------------------------------------------
  // Documents

  /** Inserts a document row; the three not-null columns the upload route
      may leave undefined are refused, in column order. */
  function CreateDocument(s: Store, d: DocumentInsert, now: int): (r: Result<(Store, Document), DbError>)
    ensures r.Err? <==> d.applicationId.None? || d.applicationType.None? || d.documentType.None?
    ensures r.Ok? ==>
      var (s', doc) := r.value;
      && doc.id == s.nextDocumentId && doc.createdAt == now
      && Some(doc.applicationId) == d.applicationId && Some(doc.applicationType) == d.applicationType
      && Some(doc.documentType) == d.documentType
      && doc.fileName == d.fileName && doc.filePath == d.filePath
      && doc.fileSize == d.fileSize && doc.mimeType == d.mimeType && doc.uploadedBy == d.uploadedBy
      && s'.documents == s.documents + [doc] && s'.nextDocumentId == s.nextDocumentId + 1
      && s'.births == s.births && s'.deaths == s.deaths && s'.users == s.users
  {
    if d.applicationId.None? then Err(NotNullViolation("application_id"))
    else if d.applicationType.None? then Err(NotNullViolation("application_type"))
    else if d.documentType.None? then Err(NotNullViolation("document_type"))
    else
      var doc := Document(s.nextDocumentId, d.applicationId.value, d.applicationType.value, d.documentType.value,
                          d.fileName, d.filePath, d.fileSize, d.mimeType, d.uploadedBy, now);
      Ok((s.(documents := s.documents + [doc], nextDocumentId := s.nextDocumentId + 1), doc))
  }

  function BelongsTo(appId: string, appType: string): Document -> bool {
    (d: Document) => d.applicationId == appId && d.applicationType == appType
  }

  /** The documents of one application, in upload order, each as often as
      in the table. */
  function DocumentsByApplication(s: Store, appId: string, appType: string): (r: seq<Document>)
    ensures forall d :: d in r <==> d in s.documents && d.applicationId == appId && d.applicationType == appType
    ensures forall d :: multiset(r)[d] == if BelongsTo(appId, appType)(d) then multiset(s.documents)[d] else 0
  {
    Filter(s.documents, BelongsTo(appId, appType))
  }

  // ---------------------------------------------------------------------
  // Users

  function HasUserId(id: string): User -> bool {
    (u: User) => u.id == id
  }

  function HasEmail(email: string): User -> bool {
    (u: User) => u.email == email
  }

  function GetUser(s: Store, id: string): (r: Option<User>)
    ensures r.Some? ==> r.value in s.users && r.value.id == id
    ensures r.None? <==> forall i :: 0 <= i < |s.users| ==> s.users[i].id != id
  {
    First(s.users, HasUserId(id))
  }

  function GetUserByEmail(s: Store, email: string): (r: Option<User>)
    ensures r.Some? ==> r.value in s.users && r.value.email == email
    ensures r.None? <==> forall i :: 0 <= i < |s.users| ==> s.users[i].email != email
  {
    First(s.users, HasEmail(email))
  }

  /** The user with that email, when the password matches its hash. */
  function ValidateUserCredentials(s: Store, email: string, password: string): (r: Option<User>)
    ensures r.Some? ==> r.value in s.users && r.value.email == email && VerifyPassword(password, r.value.password)
    ensures r.None? <==> GetUserByEmail(s, email).None? || !VerifyPassword(password, GetUserByEmail(s, email).value.password)
  {
    var u := GetUserByEmail(s, email);
    if u.Some? && VerifyPassword(password, u.value.password) then u else None
  }

  /** The fields a registration supplies; a `None` role is an explicit SQL
      NULL. */
  datatype NewUser = NewUser(email: string, password: string, firstName: string, lastName: string, role: Option<string>)

  /** Inserts a user with a hashed password, unverified, holding a fresh
      verification token that expires 24 hours from `now`. The not-null role
      column refuses a NULL role; the primary key and the unique email refuse
      a clash. */
  function RegisterUser(s: Store, data: NewUser, id: string, token: string, now: int): (r: Result<(Store, User), DbError>)
    ensures r.Err? <==>
      data.role.None? || exists i :: 0 <= i < |s.users| && (s.users[i].id == id || s.users[i].email == data.email)
    ensures data.role.None? ==> r == Err(NotNullViolation("role"))
    ensures r.Ok? ==>
      var (s', u) := r.value;
      && u.id == id && u.email == data.email && VerifyPassword(data.password, u.password)
      && u.firstName == data.firstName && u.lastName == data.lastName && Some(u.role) == data.role
      && !u.isVerified
      && u.verificationToken == Some(token) && u.verificationTokenExpiry == Some(now + VERIFICATION_TOKEN_LIFETIME)
      && u.resetToken.None? && u.resetTokenExpiry.None?
      && s'.users == s.users + [u]
      && s'.births == s.births && s'.deaths == s.deaths && s'.documents == s.documents
      && s'.nextDocumentId == s.nextDocumentId
  {
    if data.role.None? then Err(NotNullViolation("role"))
    else if GetUser(s, id).Some? then Err(UniqueViolation("users_pkey"))
    else if GetUserByEmail(s, data.email).Some? then Err(UniqueViolation("users_email_unique"))
    else
      var u := User(id, data.email, HashPassword(data.password), data.firstName, data.lastName, data.role.value,
                    false, Some(token), Some(now + VERIFICATION_TOKEN_LIFETIME), None, None, now, now);
      Ok((s.(users := s.users + [u]), u))
  }

  /** A column update of the users table, applied to the row of one id. */
  datatype UserChange =
    | MarkVerified(at: int)
    | IssueVerificationToken(token: string, expiry: int, at: int)
    | IssueResetToken(token: string, expiry: int, at: int)
    | SetPassword(hash: PasswordHash, at: int)

  /** One row after a change: the changed columns take their new values,
      identity, email, names and role never change. */
  function ApplyUserChange(u: User, c: UserChange): (r: User)
    ensures r.id == u.id && r.email == u.email && r.firstName == u.firstName && r.lastName == u.lastName
    ensures r.role == u.role && r.createdAt == u.createdAt && r.updatedAt == c.at
    ensures r.isVerified == (u.isVerified || c.MarkVerified?)
    ensures r.password == if c.SetPassword? then c.hash else u.password
    ensures r.verificationToken == match c
      case MarkVerified(_) => None
      case IssueVerificationToken(t, _, _) => Some(t)
      case _ => u.verificationToken
    ensures r.resetToken == match c
      case SetPassword(_, _) => None
      case IssueResetToken(t, _, _) => Some(t)
      case _ => u.resetToken
  {
    match c
    case MarkVerified(at) =>
      u.(isVerified := true, verificationToken := None, verificationTokenExpiry := None, updatedAt := at)
    case IssueVerificationToken(t, e, at) =>
      u.(verificationToken := Some(t), verificationTokenExpiry := Some(e), updatedAt := at)
    case IssueResetToken(t, e, at) =>
      u.(resetToken := Some(t), resetTokenExpiry := Some(e), updatedAt := at)
    case SetPassword(h, at) =>
      u.(password := h, resetToken := None, resetTokenExpiry := None, updatedAt := at)
  }

  /** `update users set ... where id = $id`. */
  function UpdateUser(users: seq<User>, id: string, c: UserChange): (r: seq<User>)
    ensures |r| == |users|
    ensures forall i :: 0 <= i < |users| ==> r[i] == if users[i].id == id then ApplyUserChange(users[i], c) else users[i]
  {
    seq(|users|, i requires 0 <= i < |users| => if users[i].id == id then ApplyUserChange(users[i], c) else users[i])
  }

  /** The SQL condition `token = $t and expiry > now()`: a missing expiry
      never matches. */
  predicate HoldsVerificationToken(u: User, token: string, now: int) {
    u.verificationToken == Some(token) && u.verificationTokenExpiry.Some? && u.verificationTokenExpiry.value > now
  }

  predicate HoldsResetToken(u: User, token: string, now: int) {
    u.resetToken == Some(token) && u.resetTokenExpiry.Some? && u.resetTokenExpiry.value > now
  }

  function VerificationHolder(token: string, now: int): User -> bool {
    (u: User) => HoldsVerificationToken(u, token, now)
  }

  function ResetHolder(token: string, now: int): User -> bool {
    (u: User) => HoldsResetToken(u, token, now)
  }

  /** Marks the holder of an unexpired verification token as verified and
      clears the token; answers whether there was such a holder. */
  function VerifyEmail(s: Store, token: string, now: int): (r: (Store, bool))
    ensures r.1 <==> exists i :: 0 <= i < |s.users| && HoldsVerificationToken(s.users[i], token, now)
    ensures !r.1 ==> r.0 == s
    ensures r.1 ==> exists i :: 0 <= i < |s.users| && HoldsVerificationToken(s.users[i], token, now) &&
                     r.0.users == UpdateUser(s.users, s.users[i].id, MarkVerified(now))
    ensures r.0.births == s.births && r.0.deaths == s.deaths && r.0.documents == s.documents
    ensures r.0.nextDocumentId == s.nextDocumentId
  {
    var holder := First(s.users, VerificationHolder(token, now));
    if holder.None? then (s, false)
    else (s.(users := UpdateUser(s.users, holder.value.id, MarkVerified(now))), true)
  }

  /** Issues a new verification token, valid for 24 hours, to a known and
      not yet verified user; otherwise nothing changes. */
  function ResendVerificationEmail(s: Store, email: string, token: string, now: int): (r: Store)
    ensures GetUserByEmail(s, email).None? || GetUserByEmail(s, email).value.isVerified ==> r == s
    ensures GetUserByEmail(s, email).Some? && !GetUserByEmail(s, email).value.isVerified ==>
      r.users == UpdateUser(s.users, GetUserByEmail(s, email).value.id,
                            IssueVerificationToken(token, now + VERIFICATION_TOKEN_LIFETIME, now))
    ensures r.births == s.births && r.deaths == s.deaths && r.documents == s.documents
    ensures r.nextDocumentId == s.nextDocumentId
  {
    var u := GetUserByEmail(s, email);
    if u.None? || u.value.isVerified then s
    else s.(users := UpdateUser(s.users, u.value.id, IssueVerificationToken(token, now + VERIFICATION_TOKEN_LIFETIME, now)))
  }

  /** Issues a reset token, valid for one hour, to a known user; an unknown
      email changes nothing. */
  function RequestPasswordReset(s: Store, email: string, token: string, now: int): (r: Store)
    ensures GetUserByEmail(s, email).None? ==> r == s
    ensures GetUserByEmail(s, email).Some? ==>
      r.users == UpdateUser(s.users, GetUserByEmail(s, email).value.id,
                            IssueResetToken(token, now + RESET_TOKEN_LIFETIME, now))
    ensures r.births == s.births && r.deaths == s.deaths && r.documents == s.documents
    ensures r.nextDocumentId == s.nextDocumentId
  {
    var u := GetUserByEmail(s, email);
    if u.None? then s
    else s.(users := UpdateUser(s.users, u.value.id, IssueResetToken(token, now + RESET_TOKEN_LIFETIME, now)))
  }

  /** Replaces the password of the holder of an unexpired reset token and
      clears the token; answers whether there was such a holder. */
  function ResetPassword(s: Store, token: string, password: string, now: int): (r: (Store, bool))
    ensures r.1 <==> exists i :: 0 <= i < |s.users| && HoldsResetToken(s.users[i], token, now)
    ensures !r.1 ==> r.0 == s
    ensures r.1 ==> exists i :: 0 <= i < |s.users| && HoldsResetToken(s.users[i], token, now) &&
                     r.0.users == UpdateUser(s.users, s.users[i].id, SetPassword(HashPassword(password), now))
    ensures r.0.births == s.births && r.0.deaths == s.deaths && r.0.documents == s.documents
    ensures r.0.nextDocumentId == s.nextDocumentId
  {
    var holder := First(s.users, ResetHolder(token, now));
    if holder.None? then (s, false)
    else (s.(users := UpdateUser(s.users, holder.value.id, SetPassword(HashPassword(password), now))), true)
  }
}

=== FILE: text.dfy ===
/** The few JavaScript string operations the server uses to build identifiers:
    `Number.prototype.toString()` on non-negative integers, `padStart`,
    `substr` and `toUpperCase` on ASCII text, together with a decimal parser
    that serves as their inverse. */
module Text {

  predicate IsDigit(c: char) {
    '0' <= c <= '9'
  }

  predicate AllDigits(s: string) {
    forall i :: 0 <= i < |s| ==> IsDigit(s[i])
  }

  /** A character of `Math.random().toString(36)` after the leading "0.". */
  predicate IsBase36Lower(c: char) {
    IsDigit(c) || 'a' <= c <= 'z'
  }

  predicate IsUpperAlphanumeric(c: char) {
    IsDigit(c) || 'A' <= c <= 'Z'
  }

  function DigitValue(c: char): nat
    requires IsDigit(c)
  {
    c as int - '0' as int
  }

  function DigitChar(d: nat): (c: char)
    requires d < 10
    ensures IsDigit(c) && DigitValue(c) == d
  {
    ('0' as int + d) as char
  }

  /** Decimal rendering of a non-negative integer, most significant digit
      first, without leading zeros. */
  function Decimal(n: nat): (r: string)
    ensures 1 <= |r| && AllDigits(r)
    ensures r[0] == '0' <==> n == 0
  {
    if n < 10 then [DigitChar(n)] else Decimal(n / 10) + [DigitChar(n % 10)]
  }

  /** Reads a string of decimal digits back as a number; leading zeros are
      allowed and the empty string reads as zero. */
  function ParseDecimal(s: string): nat
    requires AllDigits(s)
  {
    if |s| == 0 then 0 else ParseDecimal(s[..|s| - 1]) * 10 + DigitValue(s[|s| - 1])
  }

  /** `Decimal` and `ParseDecimal` are inverse. */
  lemma {:induction false} DecimalRoundTrip(n: nat)
    ensures ParseDecimal(Decimal(n)) == n
  {
    if n >= 10 {
      var r := Decimal(n);
      assert r[..|r| - 1] == Decimal(n / 10);
      DecimalRoundTrip(n / 10);
    }
  }

  /** Every year from 1000 to 9999 is rendered with exactly four digits. */
  lemma FourDigitDecimal(y: nat)
    requires 1000 <= y <= 9999
    ensures |Decimal(y)| == 4
  {
    var a, b, c := y / 10, y / 100, y / 1000;
    assert a / 10 == b && b / 10 == c;
    assert |Decimal(c)| == 1;
    assert |Decimal(b)| == 2;
    assert |Decimal(a)| == 3;
  }

  function Repeat(c: char, k: nat): (r: string)
    ensures |r| == k
    ensures forall i :: 0 <= i < k ==> r[i] == c
  {
    seq(k, _ => c)
  }

  /** `s.padStart(width, fill)`: `s` itself when it is already `width` long,
      otherwise `s` behind enough copies of `fill` to reach `width`. */
  function PadStart(s: string, width: nat, fill: char): (r: string)
    ensures |r| == if |s| >= width then |s| else width
    ensures r[|r| - |s|..] == s
    ensures forall i :: 0 <= i < |r| - |s| ==> r[i] == fill
  {
    if |s| >= width then s else Repeat(fill, width - |s|) + s
  }

  lemma {:induction false} ParseZeros(z: string)
    requires forall i :: 0 <= i < |z| ==> z[i] == '0'
    ensures AllDigits(z) && ParseDecimal(z) == 0
    decreases |z|
  {
    if |z| > 0 {
      ParseZeros(z[..|z| - 1]);
    }
  }

  /** Leading zeros do not change the value read by `ParseDecimal`. */
  lemma {:induction false} ParseIgnoresLeadingZeros(z: string, s: string)
    requires forall i :: 0 <= i < |z| ==> z[i] == '0'
    requires AllDigits(s)
    ensures AllDigits(z + s) && ParseDecimal(z + s) == ParseDecimal(s)
    decreases |s|
  {
    ParseZeros(z);
    if |s| == 0 {
      assert z + s == z;
    } else {
      var t := z + s;
      assert t[..|t| - 1] == z + s[..|s| - 1];
      ParseIgnoresLeadingZeros(z, s[..|s| - 1]);
    }
  }

  /** A zero-padded decimal rendering has at least `width` digits and reads
      back as the number it renders. */
  lemma PaddedDecimalRoundTrip(n: nat, width: nat)
    ensures var p := PadStart(Decimal(n), width, '0');
      width <= |p| && AllDigits(p) && ParseDecimal(p) == n
  {
    var d := Decimal(n);
    var p := PadStart(d, width, '0');
    DecimalRoundTrip(n);
    if |d| < width {
      ParseIgnoresLeadingZeros(Repeat('0', width - |d|), d);
    }
  }

  function Pow10(width: nat): (r: nat)
    ensures r >= 1
  {
    if width == 0 then 1 else 10 * Pow10(width - 1)
  }

  /** The last `width` decimal digits of `n`, zero-padded to exactly that
      width. */
  function Digits(n: nat, width: nat): (r: string)
    ensures |r| == width && AllDigits(r)
  {
    if width == 0 then [] else Digits(n / 10, width - 1) + [DigitChar(n % 10)]
  }

  /** A number that fits in `width` digits reads back from its fixed-width
      rendering. */
  lemma {:induction false} DigitsRoundTrip(n: nat, width: nat)
    requires n < Pow10(width)
    ensures ParseDecimal(Digits(n, width)) == n
  {
    if width > 0 {
      var r := Digits(n, width);
      assert r[..|r| - 1] == Digits(n / 10, width - 1);
      DigitsRoundTrip(n / 10, width - 1);
    }
  }

  /** A digit string is the fixed-width rendering of the number it reads
      as, leading zeros included. */
  lemma {:induction false} ParseDigitsRoundTrip(s: string)
    requires AllDigits(s)
    ensures ParseDecimal(s) < Pow10(|s|)
    ensures Digits(ParseDecimal(s), |s|) == s
  {
    if |s| > 0 {
      var p := s[..|s| - 1];
      ParseDigitsRoundTrip(p);
      var n := ParseDecimal(s);
      assert n / 10 == ParseDecimal(p) && n % 10 == DigitValue(s[|s| - 1]);
      assert s == p + [s[|s| - 1]];
    }
  }

  function UpperAscii(c: char): (u: char)
  {
    if 'a' <= c <= 'z' then (c as int - 32) as char else c
  }

  /** `s.toUpperCase()` restricted to ASCII letters. */
  function ToUpper(s: string): (r: string)
    ensures |r| == |s|
    ensures forall i :: 0 <= i < |s| ==> r[i] == UpperAscii(s[i])
  {
    seq(|s|, i requires 0 <= i < |s| => UpperAscii(s[i]))
  }

  /** `s.substr(start, length)` for non-negative arguments: at most `length`
      characters starting at `start`, clipped to the end of `s`. */
  function Substr(s: string, start: nat, length: nat): (r: string)
    ensures |r| <= length
    ensures start <= |s| ==> r == s[start..if start + length <= |s| then start + length else |s|]
    ensures start >= |s| ==> r == []
  {
    var from := if start <= |s| then start else |s|;
    var to := if start + length <= |s| then start + length else |s|;
    s[from..to]
  }

  /** Upper-casing a lower-case base-36 character gives an upper-case
      alphanumeric character. */
  lemma UpperBase36(s: string)
    requires forall i :: 0 <= i < |s| ==> IsBase36Lower(s[i])
    ensures forall i :: 0 <= i < |s| ==> IsUpperAlphanumeric(ToUpper(s)[i])
  {
  }
}
